=== FILE: README.md ===
# fuvest-planner study-resource and question core, in Dafny

This project models the server side of fuvest-planner, a study planner for the FUVEST and
ENEM university entrance exams. It covers three parts:

- the YouTube link utilities (`lib/youtube.ts`): the search URL that replaces a broken video
  link, the two checks that decide whether a link points at a single video, the repair of a
  video list, and duplicate removal by trimmed URL;
- the rule-based resource resolver (`lib/resources.ts`): eighteen keyword rules scanned in
  order, each with a canned bundle of two videos and two materials, plus a generic bundle
  built from the title when no rule matches;
- the three HTTP handlers:
  - `POST /api/resources` (`app/api/resources/route.ts`): the rule bundle, or the
    generative service's validated links with duplicate URLs removed and at most three per
    list;
  - `POST /api/generate-questions` (`app/api/generate-questions/route.ts`): request
    validation, the per-candidate question schema, option lettering and the 110-word cap on
    statements;
  - `POST /api/essay` (`app/api/essay/route.ts`): prompt suggestion and grading on the five
    ENEM competencies, with clamped scores and fixed fallback replies.

Everything is modelled as pure functions. The JavaScript host is a record of uninterpreted
functions (`Platform.Host`), so every property holds for any behaviour of that host. It covers:

- URL parsing;
- `JSON.parse`;
- `encodeURIComponent`;
- `toLowerCase`;
- case-insensitive regular-expression tests;
- `v.toString()`, which may throw.

The generative service is a parameter (`Platform.Upstream`): either the call threw, or it
answered with optional text. Whether `OPENAI_API_KEY` is set is a boolean parameter. The
request body is an `Option<Json>`, where `None` means `req.json()` threw.

Modules, one per file:
| file | module | what it holds |
|---|---|---|
| wrappers.dfy | Wrappers | `Option` |
| json.dfy | Json | JSON values and property lookup |
| js_text.dfy | JsText | JavaScript `length`, `includes`, `trim`, `split(/\s+/)`, `join` and words |
| sequences.dfy | Sequences | subsequences and `ConcatMap` |
| platform.dfy | Platform | host oracles, the service's outcome, `content?.trim() \|\| "{}"` |
| schema.dfy | Schema | the zod validators the routes share |
| youtube.dfy | YouTube | `lib/youtube.ts` |
| resources.dfy | Resources | `lib/resources.ts` |
| resources_route.dfy | ResourcesRoute | `app/api/resources/route.ts` |
| questions_route.dfy | QuestionsRoute | `app/api/generate-questions/route.ts` |
| essay_route.dfy | EssayRoute | `app/api/essay/route.ts` |

Some behaviour of the code is easy to misread. The model follows the code:

- `normalizeOptions` (`app/api/generate-questions/route.ts:27-34`) keeps an option that
  already starts with a letter A–D and `)`, even when the letter is not the one for its
  position.
- The question route returns every candidate that passes `QuestionSchema`
  (`app/api/generate-questions/route.ts:108-121`). `num` only shapes the prompt and does not
  cut the list.
- The question route answers with status 500 when the key is missing
  (`app/api/generate-questions/route.ts:59-64`) or anything throws (lines 122-127). It has
  no fallback question.
- A question's `correct`, `source` and `link` are validated by `QuestionSchema`
  (`app/api/generate-questions/route.ts:15-22`), never clamped or defaulted.
- `capWords` (`app/api/generate-questions/route.ts:36-40`) counts the pieces of the
  untrimmed statement. The route model applies it as written; see "## Findings".
- The resources route (`app/api/resources/route.ts`) neither repairs video links nor calls
  a video search. Its duplicate filter (lines 80-90) compares the raw URL, not the trimmed
  one.
- The essay route has two fixed grades: 660 without a key (`app/api/essay/route.ts:52-57`)
  and 560 in the catch branch (lines 156-165). The catch branch answers with that grade
  even in suggest mode.

## Model

| member | source | states |
|---|---|---|
| YouTube.ToYouTubeSearch | lib/youtube.ts:3-5 | the search URL is the fixed results-page prefix followed by exactly the encoded query |
| YouTube.SearchUrlsEqual | lib/youtube.ts:3-5 | two queries give the same search URL if and only if they encode to the same text |
| YouTube.IsLikelyYouTubeUrl | lib/youtube.ts:7-14 | a URL that does not parse is never a YouTube URL; a parsed URL is one exactly when its host is `youtube.com`, `www.youtube.com`, `m.youtube.com` or `youtu.be`; every accepted host other than `youtu.be` contains `youtube.com` |
| YouTube.IsWatchUrl | lib/youtube.ts:16-29 | a URL that does not parse is no video link; a `youtu.be` link is one exactly when its path goes beyond `/`; a URL on any other host is one exactly when the host contains `youtube.com`, the path is `/watch` and `v` is non-empty |
| YouTube.KeptLinksAreDirect | lib/youtube.ts:7-29 | a URL passes both the host check and the watch check exactly when it is a `youtu.be` link with a non-empty path or a `/watch` page with a non-empty `v` on www.youtube.com, youtube.com or m.youtube.com |
| YouTube.SearchUrlIsNotWatch | lib/youtube.ts:16-29 | a search URL the host parses as a `/results` page is never taken for a video link |
| YouTube.Repair | lib/youtube.ts:32-37 | one link keeps its label, and its URL is kept when it is a direct video link and replaced by the search URL otherwise |
| YouTube.NormalizeVideosToSearchIfBroken | lib/youtube.ts:31-38 | same length and labels; each URL is kept if direct and otherwise becomes the search URL, so every result is a direct video link or the search page |
| YouTube.NormalizeIdempotent | lib/youtube.ts:31-38 | repairing an already repaired list changes nothing |
| YouTube.Dedupe | lib/youtube.ts:40-51 | reference definition of duplicate removal: a subsequence of the input with pairwise distinct keys, the same key set as the input, and each survivor the first input link with its key; `YouTube.DedupeKeepsFirstOrder` fixes the order |
| YouTube.DedupeKeepsFirstOrder | lib/youtube.ts:40-51 | the survivors appear in the order in which their keys first occur in the input, as the single left-to-right pass produces them |
| YouTube.DedupeOfDistinct | lib/youtube.ts:40-51 | a list whose keys are already distinct comes back unchanged |
| YouTube.DedupeIdempotent | lib/youtube.ts:40-51 | removing duplicates twice is removing them once |
| YouTube.DedupeLinks | lib/youtube.ts:40-51 | the loop with its set of seen trimmed URLs computes exactly the reference `Dedupe` keyed on the trimmed URL |
| Resources.StripLeadingSlashes | lib/resources.ts:12-13 | removes the whole leading run of `/` and nothing else: the result is a suffix, every removed character is a slash, and the result does not start with one |
| Resources.Ka | lib/resources.ts:12-13 | a Khan Academy URL is the base URL followed by the path without its leading slashes |
| Resources.Rules | lib/resources.ts:15-259 | the table has eighteen rules, each with a bundle of two videos and two materials |
| Resources.KeywordHits | lib/resources.ts:266 | a pattern keyword hits exactly when its case-insensitive regular expression matches; a literal keyword hits exactly when its lower-cased text occurs somewhere in the lower-cased title, so only a title at least as long, and an empty one hits every title |
| Resources.RuleHits | lib/resources.ts:265-267 | a rule hits exactly when at least one of its keywords hits; a rule without keywords never hits |
| Resources.FirstMatch | lib/resources.ts:262-269 | the index found hits the title and no earlier rule does; no index means that no rule hits |
| Resources.Fallback | lib/resources.ts:270-280 | two videos, the search pages for the title followed by ` FUVEST ENEM` and by ` exercícios resolvidos`, and two materials, the Khan Academy and Google Scholar search URLs followed by the encoded title |
| Resources.FallbackMaterialsFollowEncoding | lib/resources.ts:276-279 | two titles get the same generic materials exactly when they percent-encode alike |
| Resources.GetResources | lib/resources.ts:262-281 | the bundle of the first rule that hits the lower-cased title, or the generic bundle when no rule hits; always two videos and two materials |
| Resources.QuadraticsOutrankLaterRules | lib/resources.ts:17-29 | a title that the quadratic-function keyword hits gets the quadratic bundle, whatever later rules would also hit it |
| Resources.MatchingIgnoresCase | lib/resources.ts:262-269 | two titles that lower-case alike and hit some rule get the same bundle |
| ResourcesRoute.ParseTitle | app/api/resources/route.ts:7 | a title is accepted exactly when the body is JSON whose `title` is a string of at least three UTF-16 code units, and the title returned is that string |
| ResourcesRoute.ParseTitleIgnoresUnknownKeys | app/api/resources/route.ts:7 | keys other than `title` do not affect the request |
| ResourcesRoute.ParseLink | app/api/resources/route.ts:9-12 | a link is accepted exactly when `label` is a string of at least two code units and `url` a string the URL parser accepts, and it carries those two strings |
| ResourcesRoute.ParseLinks | app/api/resources/route.ts:9-12 | the array parses exactly when every item passes the link schema, and then item by item |
| ResourcesRoute.ParseLinkList | app/api/resources/route.ts:14-15 | a list is accepted exactly when it is a non-empty array every item of which passes the link schema |
| ResourcesRoute.ParseBundle | app/api/resources/route.ts:13-16 | a bundle is accepted exactly when both `videos` and `materials` parse as non-empty link lists, and it is then made of those two lists, each non-empty and of valid links |
| ResourcesRoute.ParseBundleRoundTrip | app/api/resources/route.ts:9-16 | every valid bundle written as JSON is accepted by the bundle schema and read back unchanged |
| ResourcesRoute.Unique | app/api/resources/route.ts:80-90 | one to three links, a subsequence of the input with distinct raw URLs, namely the first three links of the reference duplicate removal keyed on the raw URL |
| ResourcesRoute.CatchTitle | app/api/resources/route.ts:99-100 | a failed second read gives the empty title, a body whose `title` is a string gives that string, and any other body gives `tópico` |
| ResourcesRoute.Post | app/api/resources/route.ts:18-104 | one to three videos and materials in every reply; the fallback is served exactly when the body is invalid or the service call throws, and it uses the title the catch branch rereads |
| ResourcesRoute.SpentBodyFallsBackOnEmptyTitle | app/api/resources/route.ts:98-101 | when the body cannot be read again, every caught exception serves the fallback for the empty title |
| ResourcesRoute.NoKeyServesRules | app/api/resources/route.ts:22-26 | without a key the reply is the rule bundle for the title |
| ResourcesRoute.InvalidAnswerServesRules | app/api/resources/route.ts:65-78 | an answer that is not JSON or fails the bundle schema gives the rule bundle |
| ResourcesRoute.ValidAnswerIsDeduplicated | app/api/resources/route.ts:80-97 | a valid answer is served as `unique` of each list: subsequences of the lists with distinct URLs |
| QuestionsRoute.ParseRequest | app/api/generate-questions/route.ts:6-13 | a request is accepted exactly when `topic` is a string of at least three code units, `num` is absent or a number in [3, 8], and `sourceBias` and `years` are absent or well formed; the topic and count returned are the ones given, and the count is 5 exactly when absent |
| QuestionsRoute.ParseRequestIgnoresUnknownKeys | app/api/generate-questions/route.ts:6-13 | keys the body schema does not name do not affect the request |
| QuestionsRoute.ParseOptions | app/api/generate-questions/route.ts:17 | options are accepted exactly when the value is an array of four strings of at least two code units each, and the result is those strings |
| QuestionsRoute.ParseCorrect | app/api/generate-questions/route.ts:18 | an answer index is accepted exactly when the value is an integral number in [0, 3], and the result equals it |
| QuestionsRoute.ParseLinkField | app/api/generate-questions/route.ts:20 | an absent link, a null link and a parsable URL string are told apart; a string the URL parser accepts becomes that link, and every other value is rejected |
| QuestionsRoute.ParseQuestion | app/api/generate-questions/route.ts:15-22 | a question is accepted exactly when all six fields pass their schemas (a boolean `approximate` included); the result's fields are the input's values, and it meets every constraint of the question schema |
| QuestionsRoute.ParseQuestionRoundTrip | app/api/generate-questions/route.ts:15-22 | every conforming question written as JSON is accepted and read back unchanged |
| QuestionsRoute.HasLetterPrefix | app/api/generate-questions/route.ts:31 | the regular expression accepts exactly the texts that start with `A)`, `B)`, `C)` or `D)` |
| QuestionsRoute.OptionLetter | app/api/generate-questions/route.ts:28-32 | position `i` below four gets the `i`-th letter from `A`; any later position reads `undefined` |
| QuestionsRoute.Lettered | app/api/generate-questions/route.ts:31-32 | the text is kept exactly when it starts with A–D and `)`, otherwise it is prefixed by the position's letter and `) `; within four positions the result is always lettered |
| QuestionsRoute.NormalizeOption | app/api/generate-questions/route.ts:29-33 | one option ends with its trimmed text, which is kept as it is exactly when already lettered |
| QuestionsRoute.NormalizeOptions | app/api/generate-questions/route.ts:27-34 | each option is normalised against its own position, and the first four come out lettered |
| QuestionsRoute.LetteredOptionFixed | app/api/generate-questions/route.ts:30-32 | an option that already starts with a letter A–D and `)` and has no trailing whitespace is kept unchanged, whatever its position and even when the letter is not the one for that position |
| QuestionsRoute.NormalizeOptionFixed | app/api/generate-questions/route.ts:29-33 | normalising a normalised non-blank option again changes nothing |
| QuestionsRoute.NormalizeOptionsIdempotent | app/api/generate-questions/route.ts:27-34 | lettering up to four non-blank options twice is lettering them once |
| QuestionsRoute.CapWordsAsWritten | app/api/generate-questions/route.ts:36-40 | the words kept are a prefix of the statement's words, at most 110; with at most 110 split pieces the result is the trimmed statement, otherwise it is the non-empty pieces among the first 110 joined by single spaces |
| QuestionsRoute.CapWordsAsWrittenDropsAWord | app/api/generate-questions/route.ts:36-40 | a statement of exactly 110 words with leading whitespace loses its last word |
| QuestionsRoute.CapWordsOfTrimmed | app/api/generate-questions/route.ts:36-40 | on text without surrounding whitespace, the written function keeps exactly the first 110 words |
| QuestionsRoute.CapWordsAsWrittenAgrees | app/api/generate-questions/route.ts:36-40 | a statement that does not begin with whitespace keeps the same words under the written and the intended function |
| QuestionsRoute.CapWords | app/api/generate-questions/route.ts:36-40 | the words of the result are all the words of the statement when there are at most 110, else exactly its first 110 |
| QuestionsRoute.Normalize | app/api/generate-questions/route.ts:112-116 | the normalised question is delivered in shape; only the statement (through `capWords` as written, a prefix of at most 110 of its words) and the options (lettered) change |
| QuestionsRoute.Keep | app/api/generate-questions/route.ts:110-118 | a candidate contributes one delivered question when it passes the schema and nothing otherwise |
| QuestionsRoute.Survivors | app/api/generate-questions/route.ts:108-119 | never more questions than candidates, all delivered in shape |
| QuestionsRoute.SurvivorsConcatMap | app/api/generate-questions/route.ts:108-119 | the loop is the concatenation of each candidate's contribution |
| QuestionsRoute.SurvivorsAppend | app/api/generate-questions/route.ts:108-119 | the survivors of two runs of candidates are the survivors of each run, in order |
| QuestionsRoute.InvalidCandidateIsDropped | app/api/generate-questions/route.ts:110-111 | an invalid candidate leaves the other results unchanged |
| QuestionsRoute.ValidCandidateIsKept | app/api/generate-questions/route.ts:110-117 | a valid candidate appears, normalised, between the survivors before it and those after it |
| QuestionsRoute.Candidates | app/api/generate-questions/route.ts:109 | a null answer throws; a missing or null `questions` is an empty list; an array gives its items; a string gives its characters; a number, boolean or object throws |
| QuestionsRoute.Post | app/api/generate-questions/route.ts:52-128 | status 200 exactly for a question list; an invalid request, a missing key, a failed call, an unparsable answer and a non-iterable `questions` each give their error; otherwise the reply is the survivors of the candidates, all delivered in shape |
| QuestionsRoute.AnsweredBatchIsFiltered | app/api/generate-questions/route.ts:105-121 | an answer whose `questions` is an array is replied with that array's survivors |
| QuestionsRoute.ReplyIgnoresRequest | app/api/generate-questions/route.ts:56-121 | once the request is valid, the reply does not depend on it, so `num` does not bound the number of questions |
| EssayRoute.OptionalText | app/api/essay/route.ts:13-14 | absent is accepted as no text, a string is accepted and carried as exactly that string, and anything else is rejected |
| EssayRoute.ParseMode | app/api/essay/route.ts:7 | only the strings `suggest` and `grade` are accepted, as the matching mode |
| EssayRoute.ParseRequest | app/api/essay/route.ts:9-15 | a request is accepted exactly when the body is an object with a valid `mode`, optional string `prompt` and `essay`, and well-formed optional `bias` and `years`, and it carries those values |
| EssayRoute.ParseRequestIgnoresUnknownKeys | app/api/essay/route.ts:9-15 | keys the body schema does not name do not affect the request |
| EssayRoute.Round | app/api/essay/route.ts:135 | the result is the integer nearest the input, with halves going up |
| EssayRoute.ClampScore | app/api/essay/route.ts:133-136 | always in [0, 200]; a non-number scores 0; a number below 0.5 scores 0, one from 199.5 up scores 200, anything else scores its nearest integer |
| EssayRoute.ValidScoreKept | app/api/essay/route.ts:133-136 | an integral score in [0, 200] passes through unchanged |
| EssayRoute.Score | app/api/essay/route.ts:138-142 | a competency value is read exactly when `scores` is an object holding that key, and it is the value held there |
| EssayRoute.GradeScores | app/api/essay/route.ts:137-148 | each competency is the clamped service score, every competency lies in [0, 200], and the total is their sum, within [0, 1000] |
| EssayRoute.Tally | app/api/essay/route.ts:145-148 | the five competencies are kept and the total is their sum, clamped to [0, 1000], so the scores are consistent |
| EssayRoute.UpstreamTotalIgnored | app/api/essay/route.ts:137-148 | the total the service reports has no effect on the scores returned |
| EssayRoute.SameScoresSameGrade | app/api/essay/route.ts:137-148 | two answers whose five clamped competencies agree get the same scores, total included |
| EssayRoute.Feedback | app/api/essay/route.ts:151 | a falsy feedback becomes the default text, a non-empty string is kept as it is, and any other value is what its `toString` gives, which may throw |
| EssayRoute.NoKeyReply | app/api/essay/route.ts:43-58 | without a key, suggest mode gets the placeholder prompt and grade mode the neutral grade with its fixed feedback and consistent scores |
| EssayRoute.Answer | app/api/essay/route.ts:89-90 | a failed call gives no answer; a missing or blank answer is parsed as `{}`, and any other answer is parsed from its trimmed text |
| EssayRoute.SuggestReply | app/api/essay/route.ts:60-95 | a failed call, a non-JSON answer and `null` degrade; a JSON answer with a non-empty string `prompt` is sent back whole, any other gets the default prompt |
| EssayRoute.GradeReply | app/api/essay/route.ts:97-155 | a blank essay is refused with its error; otherwise a failed call or a non-JSON answer degrades, and a JSON answer is graded with its feedback and clamped scores unless the feedback's `toString` throws, which degrades; all scores are consistent |
| EssayRoute.Dispatch | app/api/essay/route.ts:43-155 | for a valid request: the no-key reply without a key, otherwise the suggest or grade branch of its mode; status 400 exactly for a blank essay in grade mode with a key; a failed call degrades |
| EssayRoute.Post | app/api/essay/route.ts:37-167 | an invalid body degrades; without a key the reply depends only on the mode; with a key each mode takes its own branch, and a failed call or non-JSON answer degrades; status 400 exactly for a valid grading request with a key and a blank essay; scores are always consistent |
| EssayRoute.AnsweredEssayIsGraded | app/api/essay/route.ts:119-155 | with a key, a non-blank essay and a JSON answer whose feedback can be stringified, the reply is graded from that answer and never fails for a missing or malformed `scores` |
| EssayRoute.UnprintableFeedbackDegrades | app/api/essay/route.ts:151 | a feedback whose `toString` throws gives the fixed degraded grade |
| Platform.TrimmedContent | app/api/resources/route.ts:65 | a missing or blank answer reads as `{}`, and any other answer is its trimmed text |
| Schema.StringMin | app/api/generate-questions/route.ts:16 | a value is accepted exactly when it is a string of at least the given number of UTF-16 code units, and the string is returned |
| Schema.UrlString | app/api/resources/route.ts:11 | a value is accepted exactly when it is a string the URL parser accepts, and the string is returned |
| JsText.Trim | lib/youtube.ts:44 | the result is the input without its leading and trailing whitespace, and it neither starts nor ends with whitespace |
| JsText.ContainsOccurs | lib/resources.ts:266 | `includes` holds exactly when the searched text occurs at some index of the string |
| JsText.TrimIdempotent | lib/youtube.ts:44 | trimming twice is trimming once |
| JsText.Split | app/api/generate-questions/route.ts:37 | the pieces contain no whitespace, only the first and last may be empty, and they are empty exactly when the text starts or ends with whitespace |
| JsText.SplitCollapses | app/api/generate-questions/route.ts:37-39 | the pieces joined by single spaces are the text with every whitespace run collapsed to one space, a definition made character by character |
| JsText.SplitJoin | app/api/generate-questions/route.ts:37-39 | splitting undoes joining with single spaces for pieces a split could have produced |
| JsText.WordsTrim | app/api/generate-questions/route.ts:38-39 | trimming keeps every word |
| JsText.WordsJoin | app/api/generate-questions/route.ts:39 | the words of pieces joined by single spaces are the non-empty pieces |
| JsText.SplitOfTrimmed | app/api/generate-questions/route.ts:37-38 | a text without surrounding whitespace splits into exactly its words |
| JsText.JsLength | app/api/generate-questions/route.ts:7 | the UTF-16 length is between one and two units per character and is zero only for the empty string |

## Left out

- The prompts sent to the generative service, its model, temperature and token limits, and
  the current year used in the prompts: they shape only the request text. The service is the
  `Upstream` parameter.
- `getErrorMessage` and the exception message in the error bodies of all three routes: the
  model records only that the catch branch was taken (`Failed(Exception)`, `Recovered`,
  `Degraded`).
- The OpenAI client object: constructing it with an empty key is taken not to throw, as the
  routes' own key checks assume.
- URL parsing, `JSON.parse`, `encodeURIComponent`, `toLowerCase`, the regular-expression
  engine and `toString` are uninterpreted host functions. Their results are not computed, so
  the rule table's match for a given title is not evaluated.
- Floating point: JSON numbers are exact reals, with no NaN and no overflow to Infinity.
- String equality in `dedupeLinks` and `unique` compares URLs with JavaScript string equality,
  and is modelled as sequence equality of code points.
- The `YtVideo` duplicate of the link type, the `app/api/youtube-search` route, page
  components, local storage and the layout are not part of this model.
- `ResourcesRoute.Post`: the second `req.json()` in the catch branch is the `reread`
  parameter, which the model leaves free. A request body can be read only once, and the
  catch branch always follows a first read, so in practice `reread` is None and the fallback
  is built for the empty title (`ResourcesRoute.SpentBodyFallsBackOnEmptyTitle`).
- `QuestionsRoute.Candidates`: a `for ... of` over a string visits code points. A candidate
  made of one code point never passes the question schema, so only its effect (nothing kept)
  matters.

## Findings

| source | as written | input that shows it | evidently intended | confidence | as-written member | corrected member |
|---|---|---|---|---|---|---|
| app/api/generate-questions/route.ts:36-40 | `capWords` counts the pieces of `s.split(/\s+/)` on the untrimmed statement; leading whitespace yields an empty first piece that takes one of the 110 places | a statement of one space followed by 110 words separated by single spaces: it is cut to its first 109 words | keep the first 110 words, whatever whitespace surrounds them | not executed | QuestionsRoute.CapWordsAsWritten, QuestionsRoute.CapWordsAsWrittenDropsAWord | QuestionsRoute.CapWords |

`QuestionsRoute.Normalize`, and so the route, applies `capWords` as written. `QuestionsRoute.CapWords` is the corrected definition, and `QuestionsRoute.CapWordsAsWrittenAgrees` shows that the two keep the same words whenever the statement does not begin with whitespace.

=== FILE: essay_route.dfy ===
/** The essay endpoint (`app/api/essay/route.ts`): in `suggest` mode it proposes an essay
    prompt, in `grade` mode it scores an essay on the five ENEM competencies. Without an API
    key it answers with fixed placeholders; any exception yields the fixed degraded grade. */
module EssayRoute {
  import opened Wrappers
  import opened Json
  import opened JsText
  import opened Platform
  import opened Schema

  datatype Mode = Suggest | Grade

  /** The validated request; `bias`, `years` and `prompt` only shape the text sent to the
      service. */
  datatype Request = Request(mode: Mode, prompt: Option<string>, essay: Option<string>)

  /** Five competency scores and their total. */
  datatype Scores = Scores(c1: int, c2: int, c3: int, c4: int, c5: int, total: int)

  /** The reply. `Rejected` has status 400 and every other reply status 200; `Degraded` is the
      catch branch, whose body also carries the exception's message (not modelled). */
  datatype Reply =
    | Suggestion(payload: Json)
    | Graded(feedback: string, scores: Scores)
    | Rejected(error: string)
    | Degraded(feedback: string, scores: Scores)

  const PlaceholderPrompt: string :=
    "Tema (fallback): Os desafios da mobilidade urbana sustentável nas metrópoles brasileiras."
  const DefaultPrompt: string := "Tema: Desafios da inclusão digital no Brasil."
  const NoKeyFeedback: string :=
    "Não foi possível usar a IA para correção (sem OPENAI_API_KEY). Revise tese, coesão e proposta de intervenção."
  const NoKeyScores: Scores := Scores(120, 140, 140, 140, 120, 660)
  const CatchFeedback: string :=
    "Não foi possível corrigir agora. Tente novamente mais tarde e verifique sua OPENAI_API_KEY."
  const CatchScores: Scores := Scores(100, 120, 120, 120, 100, 560)
  const DefaultFeedback: string := "Sem feedback detalhado."
  const EmptyEssayError: string := "Essay vazio."

  /** The HTTP status of a reply. */
  function Status(r: Reply): int {
    if r.Rejected? then 400 else 200
  }

  /** Scores as the grading matrix defines them: each competency in [0, 200] and the total
      their sum, hence in [0, 1000]. */
  predicate Consistent(s: Scores) {
    && 0 <= s.c1 <= 200 && 0 <= s.c2 <= 200 && 0 <= s.c3 <= 200
    && 0 <= s.c4 <= 200 && 0 <= s.c5 <= 200
    && s.total == s.c1 + s.c2 + s.c3 + s.c4 + s.c5
    && 0 <= s.total <= 1000
  }

  /** `z.string().optional()`: Some(None) when absent, Some(Some(s)) for a string, None for
      anything else. */
  function OptionalText(v: Option<Json>): (r: Option<Option<string>>)
    ensures r == Some(None) <==> v.None?
    ensures r.Some? && r.value.Some? <==> v.Some? && v.value.JStr?
    ensures r.Some? && r.value.Some? ==> v == Some(JStr(r.value.value))
  {
    match v
    case None => Some(None)
    case Some(JStr(s)) => Some(Some(s))
    case Some(_) => None
  }

  /** `z.enum(["suggest", "grade"])` */
  function ParseMode(v: Option<Json>): (r: Option<Mode>)
    ensures r == Some(Suggest) <==> v == Some(JStr("suggest"))
    ensures r == Some(Grade) <==> v == Some(JStr("grade"))
  {
    match v
    case Some(JStr(m)) =>
      if m == "suggest" then Some(Suggest) else if m == "grade" then Some(Grade) else None
    case _ => None
  }

  /** `Body.parse(await req.json())`. */
  function ParseRequest(body: Option<Json>): (r: Option<Request>)
    ensures r.Some? ==> body.Some? && body.value.JObj?
    ensures body.None? ==> r.None?
    ensures body.Some? ==> var j := body.value;
      && (r.Some? <==>
           && ParseMode(Get(j, "mode")).Some?
           && OptionalText(Get(j, "prompt")).Some? && OptionalText(Get(j, "essay")).Some?
           && OptionalExamList(Get(j, "bias")) && OptionalYears(Get(j, "years")))
      && (r.Some? ==> && r.value.mode == ParseMode(Get(j, "mode")).value
                      && r.value.prompt == OptionalText(Get(j, "prompt")).value
                      && r.value.essay == OptionalText(Get(j, "essay")).value)
  {
    match body
    case None => None
    case Some(j) =>
      var mode := ParseMode(Get(j, "mode"));
      var prompt := OptionalText(Get(j, "prompt"));
      var essay := OptionalText(Get(j, "essay"));
      if mode.Some? && prompt.Some? && essay.Some?
         && OptionalExamList(Get(j, "bias")) && OptionalYears(Get(j, "years"))
      then Some(Request(mode.value, prompt.value, essay.value))
      else None
  }

  /** A key the schema does not name changes nothing: zod drops unknown keys. */
  lemma ParseRequestIgnoresUnknownKeys(m: map<string, Json>, k: string, v: Json)
    requires k !in {"mode", "bias", "years", "prompt", "essay"}
    ensures ParseRequest(Some(JObj(m[k := v]))) == ParseRequest(Some(JObj(m)))
  {
    var a, b := JObj(m[k := v]), JObj(m);
    assert Get(a, "mode") == Get(b, "mode") && Get(a, "prompt") == Get(b, "prompt");
    assert Get(a, "essay") == Get(b, "essay");
    assert Get(a, "bias") == Get(b, "bias") && Get(a, "years") == Get(b, "years");
  }

  // ---------------------------------------------------------------- scores

  /** `Math.round(x)`: the nearest integer, halves rounded up. */
  function Round(x: real): (r: int)
    ensures r as real - 0.5 <= x < r as real + 0.5
  {
    (x + 0.5).Floor
  }

  /** `clamp(n)`: a number is rounded and clamped to [0, 200]; anything else scores 0. */
  function ClampScore(v: Option<Json>): (r: int)
    ensures 0 <= r <= 200
    ensures !(v.Some? && v.value.JNum?) ==> r == 0
    ensures v.Some? && v.value.JNum? ==>
      var x := v.value.n;
      && (x < 0.5 ==> r == 0)
      && (x >= 199.5 ==> r == 200)
      && (0.5 <= x < 199.5 ==> r as real - 0.5 <= x < r as real + 0.5)
  {
    var x := match v case Some(JNum(n)) => n case _ => 0.0;
    var k := Round(x);
    if k < 0 then 0 else if k > 200 then 200 else k
  }

  /** `parsed?.scores?.[key]`: the value under `key` when `scores` is an object holding it,
      undefined otherwise (also when `parsed` or `scores` is null or not an object). */
  function Score(parsed: Json, key: string): (r: Option<Json>)
    ensures r.Some? <==> Get(parsed, "scores").Some? && Get(parsed, "scores").value.JObj?
                         && key in Get(parsed, "scores").value.fields
    ensures r.Some? ==> r.value == Get(parsed, "scores").value.fields[key]
  {
    GetOpt(Get(parsed, "scores"), key)
  }

  /** The scores the route computes from the service's answer: each competency clamped, the
      total recomputed from them (the `total` the service sent is ignored). */
  function GradeScores(parsed: Json): (s: Scores)
    ensures Consistent(s)
    ensures s.c1 == ClampScore(Score(parsed, "c1")) && s.c2 == ClampScore(Score(parsed, "c2"))
    ensures s.c3 == ClampScore(Score(parsed, "c3")) && s.c4 == ClampScore(Score(parsed, "c4"))
    ensures s.c5 == ClampScore(Score(parsed, "c5"))
  {
    Tally(ClampScore(Score(parsed, "c1")), ClampScore(Score(parsed, "c2")), ClampScore(Score(parsed, "c3")),
          ClampScore(Score(parsed, "c4")), ClampScore(Score(parsed, "c5")))
  }

  /** The five competency scores with the total clamped to [0, 1000] from their sum. */
  function Tally(c1: int, c2: int, c3: int, c4: int, c5: int): (s: Scores)
    requires 0 <= c1 <= 200 && 0 <= c2 <= 200 && 0 <= c3 <= 200 && 0 <= c4 <= 200 && 0 <= c5 <= 200
    ensures Consistent(s)
    ensures s.c1 == c1 && s.c2 == c2 && s.c3 == c3 && s.c4 == c4 && s.c5 == c5
  {
    var sum := c1 + c2 + c3 + c4 + c5;
    Scores(c1, c2, c3, c4, c5, if sum < 0 then 0 else if sum > 1000 then 1000 else sum)
  }

  /** Integral scores within range pass through unchanged. */
  lemma ValidScoreKept(k: int)
    requires 0 <= k <= 200
    ensures ClampScore(Some(JNum(k as real))) == k
  {
  }

  lemma ScoreIgnoresTotal(m: map<string, Json>, sm: map<string, Json>, t1: Json, t2: Json, key: string)
    requires key != "total"
    ensures Score(JObj(m["scores" := JObj(sm["total" := t1])]), key)
         == Score(JObj(m["scores" := JObj(sm["total" := t2])]), key)
  {
    assert Get(JObj(m["scores" := JObj(sm["total" := t1])]), "scores") == Some(JObj(sm["total" := t1]));
    assert Get(JObj(m["scores" := JObj(sm["total" := t2])]), "scores") == Some(JObj(sm["total" := t2]));
  }

  /** The total the service reports has no effect on the scores returned. */
  lemma UpstreamTotalIgnored(m: map<string, Json>, sm: map<string, Json>, t1: Json, t2: Json)
    ensures GradeScores(JObj(m["scores" := JObj(sm["total" := t1])]))
         == GradeScores(JObj(m["scores" := JObj(sm["total" := t2])]))
  {
    ScoreIgnoresTotal(m, sm, t1, t2, "c1");
    ScoreIgnoresTotal(m, sm, t1, t2, "c2");
    ScoreIgnoresTotal(m, sm, t1, t2, "c3");
    ScoreIgnoresTotal(m, sm, t1, t2, "c4");
    ScoreIgnoresTotal(m, sm, t1, t2, "c5");
    SameScoresSameGrade(JObj(m["scores" := JObj(sm["total" := t1])]), JObj(m["scores" := JObj(sm["total" := t2])]));
  }

  /** The grade depends on the answer only through its five clamped competency values. */
  lemma SameScoresSameGrade(a: Json, b: Json)
    requires ClampScore(Score(a, "c1")) == ClampScore(Score(b, "c1"))
    requires ClampScore(Score(a, "c2")) == ClampScore(Score(b, "c2"))
    requires ClampScore(Score(a, "c3")) == ClampScore(Score(b, "c3"))
    requires ClampScore(Score(a, "c4")) == ClampScore(Score(b, "c4"))
    requires ClampScore(Score(a, "c5")) == ClampScore(Score(b, "c5"))
    ensures GradeScores(a) == GradeScores(b)
  {
  }

  /** `(parsed?.feedback || "Sem feedback detalhado.").toString()`: a falsy feedback becomes
      the default text, a non-empty string is kept, any other truthy value is stringified,
      and None stands for a `toString` that throws. */
  function Feedback(h: Host, parsed: Json): (r: Option<string>)
    ensures !Truthy(Get(parsed, "feedback")) ==> r == Some(DefaultFeedback)
    ensures Get(parsed, "feedback").Some? && Get(parsed, "feedback").value.JStr? ==>
      r == Some(if Get(parsed, "feedback").value.s == [] then DefaultFeedback else Get(parsed, "feedback").value.s)
    ensures Truthy(Get(parsed, "feedback")) && !Get(parsed, "feedback").value.JStr? ==>
      r == h.toJsString(Get(parsed, "feedback").value)
  {
    match Get(parsed, "feedback")
    case None => Some(DefaultFeedback)
    case Some(JStr(s)) => if s != [] then Some(s) else Some(DefaultFeedback)
    case Some(v) => if Truthy(Some(v)) then h.toJsString(v) else Some(DefaultFeedback)
  }

  // ---------------------------------------------------------------- POST

  /** A payload carrying a non-empty string `prompt`. */
  predicate HasPrompt(payload: Json) {
    var p := Get(payload, "prompt");
    p.Some? && p.value.JStr? && p.value.s != []
  }

  function PromptObject(prompt: string): (j: Json)
    ensures Get(j, "prompt") == Some(JStr(prompt))
    ensures prompt != [] ==> HasPrompt(j)
  {
    JObj(map["prompt" := JStr(prompt)])
  }

  /** The service's answer as `JSON.parse` reads it: None when the call or the parse threw. */
  function Answer(h: Host, upstream: Upstream): (r: Option<Json>)
    ensures upstream.Threw? ==> r.None?
    ensures upstream.Answered? ==> r == h.parseJson(TrimmedContent(upstream.content))
    ensures upstream.Answered? && (upstream.content.None? || Trim(upstream.content.value) == [])
            ==> r == h.parseJson("{}")
    ensures upstream.Answered? && upstream.content.Some? && Trim(upstream.content.value) != []
            ==> r == h.parseJson(Trim(upstream.content.value))
  {
    match upstream
    case Threw => None
    case Answered(content) => h.parseJson(TrimmedContent(content))
  }

  /** The reply without an API key, which depends only on the mode: the placeholder prompt,
      or the neutral grade with its fixed feedback and consistent scores. */
  function NoKeyReply(mode: Mode): (r: Reply)
    ensures mode == Suggest ==> r == Suggestion(PromptObject(PlaceholderPrompt))
    ensures mode == Grade ==> r == Graded(NoKeyFeedback, NoKeyScores)
    ensures r.Suggestion? ==> HasPrompt(r.payload)
    ensures r.Graded? ==> Consistent(r.scores)
  {
    if mode == Suggest then Suggestion(PromptObject(PlaceholderPrompt))
    else Graded(NoKeyFeedback, NoKeyScores)
  }

  /** `suggest` mode with a key: the service's JSON is sent back whole when it has a
      non-empty string `prompt`, otherwise the default prompt is; a failed call, an answer
      that is not JSON and `null` (on which `json.prompt` throws) degrade. */
  function SuggestReply(h: Host, upstream: Upstream): (r: Reply)
    ensures Answer(h, upstream).None? || Answer(h, upstream) == Some(JNull)
            ==> r == Degraded(CatchFeedback, CatchScores)
    ensures Answer(h, upstream).Some? && Answer(h, upstream) != Some(JNull) ==>
      r == if HasPrompt(Answer(h, upstream).value) then Suggestion(Answer(h, upstream).value)
           else Suggestion(PromptObject(DefaultPrompt))
    ensures r.Suggestion? ==> HasPrompt(r.payload)
  {
    match Answer(h, upstream)
    case None => Degraded(CatchFeedback, CatchScores)
    case Some(JNull) => Degraded(CatchFeedback, CatchScores)
    case Some(json) =>
      if HasPrompt(json) then Suggestion(json) else Suggestion(PromptObject(DefaultPrompt))
  }

  /** `grade` mode with a key: a blank essay is refused before the service is called; a
      failed call, an answer that is not JSON or a feedback whose `toString` throws degrades;
      any other JSON answer, even `null`, is graded. */
  function GradeReply(h: Host, essay: Option<string>, upstream: Upstream): (r: Reply)
    ensures r.Rejected? <==> Trim(essay.GetOr("")) == []
    ensures r.Rejected? ==> r == Rejected(EmptyEssayError)
    ensures Trim(essay.GetOr("")) != [] && Answer(h, upstream).None?
            ==> r == Degraded(CatchFeedback, CatchScores)
    ensures Trim(essay.GetOr("")) != [] && Answer(h, upstream).Some? ==>
      var parsed := Answer(h, upstream).value;
      r == if Feedback(h, parsed).Some? then Graded(Feedback(h, parsed).value, GradeScores(parsed))
           else Degraded(CatchFeedback, CatchScores)
    ensures r.Graded? || r.Degraded? ==> Consistent(r.scores)
    ensures !r.Suggestion?
  {
    if Trim(essay.GetOr("")) == [] then Rejected(EmptyEssayError)
    else match Answer(h, upstream)
      case None => Degraded(CatchFeedback, CatchScores)
      case Some(parsed) =>
        match Feedback(h, parsed)
        case None => Degraded(CatchFeedback, CatchScores)
        case Some(f) => Graded(f, GradeScores(parsed))
  }

  /** The reply to a valid request: the placeholder reply without a key, otherwise the
      branch of the request's mode. */
  function Dispatch(h: Host, req: Request, hasKey: bool, upstream: Upstream): (r: Reply)
    ensures !hasKey ==> r == NoKeyReply(req.mode)
    ensures hasKey && req.mode == Suggest ==> r == SuggestReply(h, upstream)
    ensures hasKey && req.mode == Grade ==> r == GradeReply(h, req.essay, upstream)
    ensures Status(r) == 400 <==> hasKey && req.mode == Grade && Trim(req.essay.GetOr("")) == []
    ensures hasKey && Answer(h, upstream).None? && (req.mode == Suggest || Trim(req.essay.GetOr("")) != [])
            ==> r == Degraded(CatchFeedback, CatchScores)
    ensures r.Graded? || r.Degraded? ==> Consistent(r.scores)
    ensures r.Suggestion? ==> HasPrompt(r.payload)
    ensures r.Degraded? ==> r == Degraded(CatchFeedback, CatchScores)
  {
    if !hasKey then NoKeyReply(req.mode)
    else if req.mode == Suggest then SuggestReply(h, upstream)
    else
      assert req.mode == Grade;
      GradeReply(h, req.essay, upstream)
  }

  /** `POST /api/essay`. `body` is the request body as parsed JSON, `hasKey` whether
      `OPENAI_API_KEY` is set and `upstream` the completion call's outcome. An invalid body
      degrades; without a key the reply depends on the mode alone; with a key each mode
      follows its own branch. Only a blank essay in grading mode with a key is refused, with
      status 400; every score returned is consistent and every suggestion carries a
      non-empty prompt. */
  function Post(h: Host, body: Option<Json>, hasKey: bool, upstream: Upstream): (r: Reply)
    ensures ParseRequest(body).None? ==> r == Degraded(CatchFeedback, CatchScores)
    ensures ParseRequest(body).Some? && !hasKey ==> r == NoKeyReply(ParseRequest(body).value.mode)
    ensures ParseRequest(body).Some? && hasKey && ParseRequest(body).value.mode == Suggest
            ==> r == SuggestReply(h, upstream)
    ensures ParseRequest(body).Some? && hasKey && ParseRequest(body).value.mode == Grade
            ==> r == GradeReply(h, ParseRequest(body).value.essay, upstream)
    ensures Status(r) == 400 <==> ParseRequest(body).Some? && hasKey
                                  && ParseRequest(body).value.mode == Grade
                                  && Trim(ParseRequest(body).value.essay.GetOr("")) == []
    ensures ParseRequest(body).Some? && hasKey && Answer(h, upstream).None?
            && (ParseRequest(body).value.mode == Suggest || Trim(ParseRequest(body).value.essay.GetOr("")) != [])
            ==> r == Degraded(CatchFeedback, CatchScores)
    ensures r.Graded? || r.Degraded? ==> Consistent(r.scores)
    ensures r.Suggestion? ==> HasPrompt(r.payload)
    ensures r.Degraded? ==> r == Degraded(CatchFeedback, CatchScores)
  {
    match ParseRequest(body)
    case None => Degraded(CatchFeedback, CatchScores)
    case Some(req) => Dispatch(h, req, hasKey, upstream)
  }

  /** With a key and a valid `grade` request whose essay is not blank, a JSON answer whose
      feedback can be stringified is graded from the service's competency scores, and the
      call never fails for a missing or malformed `scores` object. */
  lemma AnsweredEssayIsGraded(h: Host, body: Option<Json>, content: Option<string>, parsed: Json)
    requires ParseRequest(body).Some? && ParseRequest(body).value.mode == Grade
    requires Trim(ParseRequest(body).value.essay.GetOr("")) != []
    requires h.parseJson(TrimmedContent(content)) == Some(parsed)
    requires Feedback(h, parsed).Some?
    ensures Post(h, body, true, Answered(content)) == Graded(Feedback(h, parsed).value, GradeScores(parsed))
  {
    var req := ParseRequest(body).value;
    assert Answer(h, Answered(content)) == Some(parsed);
    assert Post(h, body, true, Answered(content)) == GradeReply(h, req.essay, Answered(content));
  }

  /** A feedback whose `toString` throws sends the grading request to the catch branch. */
  lemma UnprintableFeedbackDegrades(h: Host, body: Option<Json>, content: Option<string>, parsed: Json)
    requires ParseRequest(body).Some? && ParseRequest(body).value.mode == Grade
    requires Trim(ParseRequest(body).value.essay.GetOr("")) != []
    requires h.parseJson(TrimmedContent(content)) == Some(parsed)
    requires Feedback(h, parsed).None?
    ensures Post(h, body, true, Answered(content)) == Degraded(CatchFeedback, CatchScores)
  {
    var req := ParseRequest(body).value;
    assert Answer(h, Answered(content)) == Some(parsed);
    assert Post(h, body, true, Answered(content)) == GradeReply(h, req.essay, Answered(content));
  }
}

=== FILE: js_text.dfy ===
/** The string primitives of JavaScript that the routes rely on: `length` in UTF-16 code
    units, `trim`, `split(/\s+/)`, `join` and `includes`. */
module JsText {

  /** The characters ECMAScript classes as WhiteSpace or LineTerminator: the set `trim`
      removes and the set the regular-expression class `\s` matches. */
  predicate IsSpace(c: char) {
    var n := c as int;
    n == 0x09 || n == 0x0A || n == 0x0B || n == 0x0C || n == 0x0D || n == 0x20
    || n == 0xA0 || n == 0x1680 || (0x2000 <= n <= 0x200A) || n == 0x2028 || n == 0x2029
    || n == 0x202F || n == 0x205F || n == 0x3000 || n == 0xFEFF
  }

  predicate AllSpace(s: string) {
    forall i | 0 <= i < |s| :: IsSpace(s[i])
  }

  predicate NoSpace(s: string) {
    forall i | 0 <= i < |s| :: !IsSpace(s[i])
  }

  /** `s.length`: characters outside the Basic Multilingual Plane take two code units. */
  function JsLength(s: string): (n: nat)
    ensures |s| <= n <= 2 * |s|
    ensures n == 0 <==> s == []
  {
    if s == [] then 0 else (if s[0] as int > 0xFFFF then 2 else 1) + JsLength(s[1..])
  }

  /** `s.includes(t)`. */
  predicate Contains(s: string, t: string)
    decreases |s|
  {
    |t| <= |s| && (s[..|t|] == t || (s != [] && Contains(s[1..], t)))
  }

  /** `t` occurs in `s` starting at index `i`. */
  predicate OccursAt(s: string, t: string, i: nat) {
    i + |t| <= |s| && s[i..i + |t|] == t
  }

  /** `includes` holds exactly when the text occurs somewhere in the string. */
  lemma {:induction false} ContainsOccurs(s: string, t: string)
    ensures Contains(s, t) <==> exists i: nat :: OccursAt(s, t, i)
    decreases |s|
  {
    if s != [] && |t| <= |s| {
      ContainsOccurs(s[1..], t);
      if Contains(s, t) {
        if s[..|t|] == t {
          assert OccursAt(s, t, 0);
        } else {
          var i: nat :| OccursAt(s[1..], t, i);
          assert s[1..][i..i + |t|] == s[i + 1..i + 1 + |t|];
          assert OccursAt(s, t, i + 1);
        }
      }
      if exists i: nat :: OccursAt(s, t, i) {
        var i: nat :| OccursAt(s, t, i);
        if i > 0 {
          assert s[1..][i - 1..i - 1 + |t|] == s[i..i + |t|];
          assert OccursAt(s[1..], t, i - 1);
        }
      }
    } else if s == [] && t == [] {
      assert OccursAt(s, t, 0);
    }
  }

  // ---------------------------------------------------------------- trim

  function TrimStart(s: string): (r: string)
    ensures |r| <= |s|
    ensures r == s[|s| - |r|..]
    ensures AllSpace(s[..|s| - |r|])
    ensures r == [] || !IsSpace(r[0])
    decreases |s|
  {
    if s != [] && IsSpace(s[0]) then TrimStart(s[1..]) else s
  }

  function TrimEnd(s: string): (r: string)
    ensures |r| <= |s|
    ensures r == s[..|r|]
    ensures AllSpace(s[|r|..])
    ensures r == [] || !IsSpace(r[|r| - 1])
    decreases |s|
  {
    if s != [] && IsSpace(s[|s| - 1]) then
      var p := s[..|s| - 1];
      var r := TrimEnd(p);
      assert s[|r|..] == p[|r|..] + [s[|s| - 1]];
      assert forall i | 0 <= i < |p| - |r| :: s[|r|..][i] == p[|r|..][i];
      assert p[..|r|] == s[..|r|];
      r
    else
      assert s[|s|..] == [];
      s
  }

  /** `s.trim()`: `s` without its leading and trailing whitespace. The result is a prefix of
      `TrimStart(s)` (the text after the leading whitespace) followed there only by
      whitespace, and it neither starts nor ends with whitespace. */
  function Trim(s: string): (r: string)
    ensures |r| <= |TrimStart(s)| <= |s|
    ensures r == TrimStart(s)[..|r|] && AllSpace(TrimStart(s)[|r|..])
    ensures r == [] || (!IsSpace(r[0]) && !IsSpace(r[|r| - 1]))
  {
    var t := TrimStart(s);
    var r := TrimEnd(t);
    assert r != [] ==> r[0] == t[0];
    r
  }

  lemma {:induction false} TrimOfTrimmed(s: string)
    requires s == [] || (!IsSpace(s[0]) && !IsSpace(s[|s| - 1]))
    ensures Trim(s) == s
  {
  }

  /** Trimming twice is trimming once. */
  lemma {:induction false} TrimIdempotent(s: string)
    ensures Trim(Trim(s)) == Trim(s)
  {
    var r := Trim(s);
    assert r == [] || (!IsSpace(r[0]) && !IsSpace(r[|r| - 1]));
    TrimOfTrimmed(r);
  }

  // ---------------------------------------------------------------- split

  /** The first whitespace position at or after `i`, or `|s|`. */
  function NextSpace(s: string, i: nat): (k: nat)
    requires i <= |s|
    ensures i <= k <= |s|
    ensures forall m | i <= m < k :: !IsSpace(s[m])
    ensures k < |s| ==> IsSpace(s[k])
    decreases |s| - i
  {
    if i == |s| || IsSpace(s[i]) then i else NextSpace(s, i + 1)
  }

  /** The first non-whitespace position at or after `i`, or `|s|`. */
  function NextNonSpace(s: string, i: nat): (k: nat)
    requires i <= |s|
    ensures i <= k <= |s|
    ensures forall m | i <= m < k :: IsSpace(s[m])
    ensures k < |s| ==> !IsSpace(s[k])
    decreases |s| - i
  {
    if i == |s| || !IsSpace(s[i]) then i else NextNonSpace(s, i + 1)
  }

  lemma {:induction false} NextSpaceIs(s: string, i: nat, k: nat)
    requires i <= k <= |s|
    requires forall m | i <= m < k :: !IsSpace(s[m])
    requires k < |s| ==> IsSpace(s[k])
    ensures NextSpace(s, i) == k
  {
  }

  lemma {:induction false} NextNonSpaceIs(s: string, i: nat, k: nat)
    requires i <= k <= |s|
    requires forall m | i <= m < k :: IsSpace(s[m])
    requires k < |s| ==> !IsSpace(s[k])
    ensures NextNonSpace(s, i) == k
  {
  }

  /** The text with every maximal run of whitespace replaced by one space, read character by
      character: a whitespace character followed by another is dropped, one followed by a
      non-whitespace character (or by nothing) becomes a space. */
  function CollapseSpaces(s: string): string
    decreases |s|
  {
    if s == [] then []
    else if IsSpace(s[0]) then (if |s| > 1 && IsSpace(s[1]) then [] else " ") + CollapseSpaces(s[1..])
    else [s[0]] + CollapseSpaces(s[1..])
  }

  /** A run of non-whitespace characters at the front is kept as it is. */
  lemma {:induction false} CollapseWord(s: string, i: nat)
    requires i <= |s|
    requires forall m | 0 <= m < i :: !IsSpace(s[m])
    ensures CollapseSpaces(s) == s[..i] + CollapseSpaces(s[i..])
    decreases i
  {
    if i > 0 {
      var t := s[1..];
      CollapseWord(t, i - 1);
      assert t[i - 1..] == s[i..];
      assert [s[0]] + t[..i - 1] == s[..i];
    } else {
      assert s[0..] == s;
    }
  }

  /** A maximal run of whitespace starting at `i` becomes one space. */
  lemma {:induction false} CollapseRun(s: string, i: nat, j: nat)
    requires i < j <= |s|
    requires forall m | i <= m < j :: IsSpace(s[m])
    requires j < |s| ==> !IsSpace(s[j])
    ensures CollapseSpaces(s[i..]) == " " + CollapseSpaces(s[j..])
    decreases j - i
  {
    var t := s[i..];
    assert t[1..] == s[i + 1..];
    if j > i + 1 {
      assert t[1] == s[i + 1];
      CollapseRun(s, i + 1, j);
    }
  }

  /** `s.split(/\s+/)`: the pieces between maximal runs of whitespace. A leading run gives
      an empty first piece and a trailing run an empty last piece; every other piece is a
      non-empty run of non-whitespace characters. */
  function Split(s: string): (ws: seq<string>)
    ensures |ws| >= 1
    ensures forall k | 0 <= k < |ws| :: NoSpace(ws[k])
    ensures forall k | 0 < k < |ws| - 1 :: ws[k] != []
    ensures ws[0] == [] <==> s == [] || IsSpace(s[0])
    ensures ws[|ws| - 1] == [] <==> s == [] || IsSpace(s[|s| - 1])
    decreases |s|
  {
    var i := NextSpace(s, 0);
    if i == |s| then [s]
    else
      var j := NextNonSpace(s, i);
      [s[..i]] + Split(s[j..])
  }

  /** Joining the pieces with single spaces collapses every whitespace run of the text. */
  lemma {:induction false} SplitCollapses(s: string)
    ensures Join(Split(s), " ") == CollapseSpaces(s)
    decreases |s|
  {
    var i := NextSpace(s, 0);
    if i == |s| {
      CollapseWord(s, i);
      assert s[..i] == s && s[i..] == [];
    } else {
      var j := NextNonSpace(s, i);
      SplitCollapses(s[j..]);
      CollapseStep(s, i, j);
      JoinCons(s[..i], Split(s[j..]), " ");
    }
  }

  /** One word and the whitespace run after it collapse to the word and one space. */
  lemma {:induction false} CollapseStep(s: string, i: nat, j: nat)
    requires i < j <= |s|
    requires forall m | 0 <= m < i :: !IsSpace(s[m])
    requires forall m | i <= m < j :: IsSpace(s[m])
    requires j < |s| ==> !IsSpace(s[j])
    ensures CollapseSpaces(s) == s[..i] + " " + CollapseSpaces(s[j..])
  {
    CollapseWord(s, i);
    CollapseRun(s, i, j);
  }

  lemma {:induction false} JoinCons(a: string, rest: seq<string>, sep: string)
    requires |rest| >= 1
    ensures Join([a] + rest, sep) == a + sep + Join(rest, sep)
  {
    assert ([a] + rest)[1..] == rest;
  }

  /** `ws.join(sep)`. */
  function Join(ws: seq<string>, sep: string): string
  {
    if |ws| == 0 then [] else if |ws| == 1 then ws[0] else ws[0] + sep + Join(ws[1..], sep)
  }

  /** The non-empty pieces of a list, in order. */
  function NonEmpty(ws: seq<string>): (r: seq<string>)
    ensures |r| <= |ws|
    ensures forall k | 0 <= k < |r| :: r[k] != []
  {
    if ws == [] then [] else (if ws[0] == [] then [] else [ws[0]]) + NonEmpty(ws[1..])
  }

  /** The words of a text: its maximal runs of non-whitespace characters. */
  function Words(s: string): seq<string> {
    NonEmpty(Split(s))
  }

  // ---------------------------------------------------------------- lemmas

  lemma {:induction false} NonEmptyAppend(a: seq<string>, b: seq<string>)
    ensures NonEmpty(a + b) == NonEmpty(a) + NonEmpty(b)
    decreases |a|
  {
    if a == [] {
      assert a + b == b;
    } else {
      assert (a + b)[1..] == a[1..] + b;
      NonEmptyAppend(a[1..], b);
    }
  }

  lemma {:induction false} NonEmptyOfNonEmpty(ws: seq<string>)
    requires forall k | 0 <= k < |ws| :: ws[k] != []
    ensures NonEmpty(ws) == ws
    decreases |ws|
  {
    if ws != [] {
      NonEmptyOfNonEmpty(ws[1..]);
    }
  }

  /** How `Split` treats a piece followed by one space and the rest of the text. */
  lemma {:induction false} SplitCons(a: string, rest: string)
    requires NoSpace(a)
    requires rest == [] || !IsSpace(rest[0])
    ensures Split(a + " " + rest) == [a] + Split(rest)
  {
    var s := a + " " + rest;
    assert forall m | 0 <= m < |a| :: s[m] == a[m];
    NextSpaceIs(s, 0, |a|);
    NextNonSpaceIs(s, |a|, |a| + 1);
    assert s[..|a|] == a;
    assert s[|a| + 1..] == rest;
  }

  /** Splitting undoes joining with one space, for pieces `Split` could have produced. */
  lemma {:induction false} SplitJoin(ws: seq<string>)
    requires |ws| >= 1
    requires forall k | 0 <= k < |ws| :: NoSpace(ws[k])
    requires forall k | 0 < k < |ws| - 1 :: ws[k] != []
    ensures Split(Join(ws, " ")) == ws
    decreases |ws|
  {
    if |ws| == 1 {
      NextSpaceIs(ws[0], 0, |ws[0]|);
    } else {
      var rest := Join(ws[1..], " ");
      assert rest == [] || !IsSpace(rest[0]) by {
        if |ws| > 2 {
          assert ws[1] != [] && NoSpace(ws[1]);
          assert rest == ws[1] + " " + Join(ws[2..], " ");
          assert rest[0] == ws[1][0];
        } else {
          assert rest == ws[1];
        }
      }
      SplitCons(ws[0], rest);
      SplitJoin(ws[1..]);
      assert ws == [ws[0]] + ws[1..];
    }
  }

  lemma {:induction false} NonEmptyDropEmpty(ws: seq<string>)
    ensures NonEmpty([[]] + ws) == NonEmpty(ws)
  {
    assert ([[]] + ws)[0] == [];
    assert ([[]] + ws)[1..] == ws;
  }

  /** A leading run of whitespace adds no word. */
  lemma {:induction false} WordsLeadingSpace(t: string)
    requires t != [] && IsSpace(t[0])
    ensures Words(t) == Words(t[NextNonSpace(t, 0)..])
  {
    var j := NextNonSpace(t, 0);
    NextSpaceIs(t, 0, 0);
    assert t[..0] == [];
    assert Split(t) == [[]] + Split(t[j..]);
    NonEmptyDropEmpty(Split(t[j..]));
  }

  /** A whitespace character in front of a text adds no word. */
  lemma {:induction false} WordsSpaceFront(c: char, s: string)
    requires IsSpace(c)
    ensures Words([c] + s) == Words(s)
  {
    var t := [c] + s;
    var j0 := NextNonSpace(s, 0);
    assert forall m | 0 < m <= |s| :: t[m] == s[m - 1];
    NextNonSpaceIs(t, 0, j0 + 1);
    WordsLeadingSpace(t);
    assert t[j0 + 1..] == s[j0..];
    if j0 > 0 {
      WordsLeadingSpace(s);
    } else {
      assert s[0..] == s;
    }
  }

  /** A whitespace character after a text adds no word. */
  lemma {:induction false} WordsSpaceBack(s: string, c: char)
    requires IsSpace(c)
    ensures Words(s + [c]) == Words(s)
    decreases |s|
  {
    var t := s + [c];
    var i0 := NextSpace(s, 0);
    assert forall m | 0 <= m < |s| :: t[m] == s[m];
    if i0 == |s| {
      NextSpaceIs(t, 0, |s|);
      NextNonSpaceIs(t, |s|, |s| + 1);
      assert t[..|s|] == s;
      assert t[|s| + 1..] == [];
      assert Split(t) == [s] + Split([]);
      assert Split([]) == [[]];
      assert Split(s) == [s];
      NonEmptyAppend([s], [[]]);
    } else {
      NextSpaceIs(t, 0, i0);
      var j0 := NextNonSpace(s, i0);
      assert t[..i0] == s[..i0];
      if j0 == |s| {
        NextNonSpaceIs(t, i0, |s| + 1);
        assert t[|s| + 1..] == [];
        assert s[j0..] == [];
        assert Split(t) == Split(s);
      } else {
        NextNonSpaceIs(t, i0, j0);
        assert t[j0..] == s[j0..] + [c];
        WordsSpaceBack(s[j0..], c);
        assert Split(t) == [s[..i0]] + Split(s[j0..] + [c]);
        assert Split(s) == [s[..i0]] + Split(s[j0..]);
        NonEmptyAppend([s[..i0]], Split(s[j0..] + [c]));
        NonEmptyAppend([s[..i0]], Split(s[j0..]));
      }
    }
  }

  lemma {:induction false} WordsTrimStart(s: string)
    ensures Words(TrimStart(s)) == Words(s)
    decreases |s|
  {
    if s != [] && IsSpace(s[0]) {
      var rest := s[1..];
      assert s == [s[0]] + rest;
      WordsSpaceFront(s[0], rest);
      WordsTrimStart(rest);
      assert TrimStart(s) == TrimStart(rest);
    }
  }

  lemma {:induction false} WordsTrimEnd(s: string)
    ensures Words(TrimEnd(s)) == Words(s)
    decreases |s|
  {
    if s != [] && IsSpace(s[|s| - 1]) {
      WordsTrimEnd(s[..|s| - 1]);
      assert s == s[..|s| - 1] + [s[|s| - 1]];
      WordsSpaceBack(s[..|s| - 1], s[|s| - 1]);
    }
  }

  /** Trimming keeps every word. */
  lemma {:induction false} WordsTrim(s: string)
    ensures Words(Trim(s)) == Words(s)
  {
    WordsTrimStart(s);
    WordsTrimEnd(TrimStart(s));
  }

  /** The words of pieces joined by single spaces are the non-empty pieces. */
  lemma {:induction false} WordsJoin(ws: seq<string>)
    requires |ws| >= 1
    requires forall k | 0 <= k < |ws| :: NoSpace(ws[k])
    requires forall k | 0 < k < |ws| - 1 :: ws[k] != []
    ensures Words(Join(ws, " ")) == NonEmpty(ws)
  {
    SplitJoin(ws);
  }

  /** Non-empty pieces without whitespace, joined by single spaces, need no trimming. */
  lemma {:induction false} JoinTrimmed(ws: seq<string>)
    requires |ws| >= 1
    requires forall k | 0 <= k < |ws| :: ws[k] != [] && NoSpace(ws[k])
    ensures Trim(Join(ws, " ")) == Join(ws, " ")
  {
    JoinEnds(ws);
    TrimOfTrimmed(Join(ws, " "));
  }

  lemma {:induction false} JoinEnds(ws: seq<string>)
    requires |ws| >= 1
    requires forall k | 0 <= k < |ws| :: ws[k] != [] && NoSpace(ws[k])
    ensures var j := Join(ws, " ");
      j != [] && j[0] == ws[0][0] && j[|j| - 1] == ws[|ws| - 1][|ws[|ws| - 1]| - 1]
    decreases |ws|
  {
    if |ws| > 1 {
      JoinEnds(ws[1..]);
    }
  }

  /** An empty first piece only adds a leading space, which `trim` removes. */
  lemma {:induction false} TrimJoinAfterEmpty(rest: seq<string>)
    requires |rest| >= 1
    requires forall k | 0 <= k < |rest| :: rest[k] != [] && NoSpace(rest[k])
    ensures Trim(Join([[]] + rest, " ")) == Join(rest, " ")
    ensures NonEmpty([[]] + rest) == rest
  {
    NonEmptyDropEmpty(rest);
    NonEmptyOfNonEmpty(rest);
    var line := Join(rest, " ");
    JoinCons([], rest, " ");
    assert [] + " " + line == " " + line;
    TrimSpaceFront(line);
    JoinTrimmed(rest);
  }

  /** Leading whitespace does not survive `trim`. */
  lemma {:induction false} TrimSpaceFront(x: string)
    ensures Trim(" " + x) == Trim(x)
  {
    assert (" " + x)[1..] == x;
  }

  /** A text without leading or trailing whitespace splits into exactly its words. */
  lemma {:induction false} SplitOfTrimmed(s: string)
    requires s != [] && !IsSpace(s[0]) && !IsSpace(s[|s| - 1])
    ensures Words(s) == Split(s)
  {
    var ws := Split(s);
    forall k | 0 <= k < |ws| ensures ws[k] != [] {
      if 0 < k < |ws| - 1 {
        assert ws[k] != [];
      }
    }
    NonEmptyOfNonEmpty(ws);
  }
}

=== FILE: json.dfy ===
/** JSON values as `JSON.parse` produces them, with the property lookups the routes perform. */
module Json {
  import opened Wrappers

  /** A parsed JSON value. Numbers are exact reals: `JSON.parse` never yields NaN, and the
      overflow to Infinity of very long literals is not modelled. Objects are maps because
      `JSON.parse` keeps the last of several equal keys. */
  datatype Json =
    | JNull
    | JBool(b: bool)
    | JNum(n: real)
    | JStr(s: string)
    | JArr(items: seq<Json>)
    | JObj(fields: map<string, Json>)

  /** `v.k` on a JSON value: only objects have own properties of the names the routes read;
      arrays, strings, numbers and booleans give `undefined` (None). */
  function Get(v: Json, k: string): (r: Option<Json>)
    ensures r.Some? <==> v.JObj? && k in v.fields
    ensures r.Some? ==> r.value == v.fields[k]
  {
    match v
    case JObj(m) => if k in m then Some(m[k]) else None
    case _ => None
  }

  /** `v?.k`: optional chaining, which also tolerates an absent or null receiver. */
  function GetOpt(v: Option<Json>, k: string): Option<Json> {
    match v
    case Some(JObj(m)) => if k in m then Some(m[k]) else None
    case _ => None
  }

  /** JavaScript truthiness of a possibly absent JSON value. */
  predicate Truthy(v: Option<Json>) {
    match v
    case None => false
    case Some(JNull) => false
    case Some(JBool(b)) => b
    case Some(JNum(n)) => n != 0.0
    case Some(JStr(s)) => s != []
    case Some(JArr(_)) => true
    case Some(JObj(_)) => true
  }
}

=== FILE: platform.dfy ===
/** The collaborators the routes call but whose code is not part of this model: the
    JavaScript host (URL and JSON parsing, percent-encoding, case mapping, the regular
    expression engine) and the generative text service. */
module Platform {
  import opened Wrappers
  import opened Json
  import opened JsText

  /** What a successfully parsed WHATWG `URL` exposes to the link utilities. */
  datatype Url = Url(hostname: string, pathname: string, v: Option<string>)
  //                                                     ^ searchParams.get("v")

  /** The host functions, left uninterpreted: any choice of them is a possible JavaScript
      runtime, and every property proved here holds for all of them. */
  datatype Host = Host(
    encodeUriComponent: string -> string,
    toLowerCase: string -> string,
    /** `new RegExp(source, "i").test(subject)` */
    regexTest: (string, string) -> bool,
    /** `new URL(s)`, None when the constructor throws */
    parseUrl: string -> Option<Url>,
    /** `JSON.parse(s)`, None when it throws */
    parseJson: string -> Option<Json>,
    /** `v.toString()` for the values the essay route stringifies, None when it throws (an
        object whose own `toString` property is not a function) */
    toJsString: Json -> Option<string>)

  /** The outcome of one chat-completion call: it threw (network, credentials, quota), or it
      answered with the first choice's message content, which may be null or missing. */
  datatype Upstream = Threw | Answered(content: Option<string>)

  /** `content?.trim() || "{}"`: the text the resources and essay routes hand to
      `JSON.parse`; a missing or blank answer reads as the empty object. */
  function TrimmedContent(content: Option<string>): (r: string)
    ensures r != []
    ensures content.Some? && Trim(content.value) != [] ==> r == Trim(content.value)
    ensures content.None? || Trim(content.value) == [] ==> r == "{}"
  {
    match content
    case None => "{}"
    case Some(s) => if Trim(s) == [] then "{}" else Trim(s)
  }
}

=== FILE: questions_route.dfy ===
/** The question endpoint (`app/api/generate-questions/route.ts`): validates the request,
    asks the generative service for a batch of multiple-choice questions, keeps the
    candidates that meet the question schema, one by one, and tidies their statement and
    options. */
module QuestionsRoute {
  import opened Wrappers
  import opened Json
  import opened JsText
  import opened Platform
  import opened Schema
  import opened Sequences

  /** The `link` property of a question: absent, `null`, or a URL string. */
  datatype LinkField = NoLink | NullLink | LinkUrl(url: string)

  datatype Question = Question(
    statement: string,
    options: seq<string>,
    correct: int,
    source: string,
    link: LinkField,
    approximate: bool)

  /** The validated request; `sourceBias` and `years` only shape the prompt. */
  datatype Request = Request(topic: string, num: real)

  /** Why the reply is an error: the missing key has its own fixed message ("OPENAI_API_KEY
      ausente no ambiente"); every other failure reports the exception's message, which is
      not modelled. */
  datatype ErrorCause = MissingApiKey | Exception

  datatype Reply = Questions(items: seq<Question>) | Failed(cause: ErrorCause)

  function Status(r: Reply): int {
    if r.Questions? then 200 else 500
  }

  /** `Body.parse(await req.json())`: a topic of at least three code units and a count in
      [3, 8] that defaults to 5; `sourceBias` and `years` must be well formed when present. */
  function ParseRequest(body: Option<Json>): (r: Option<Request>)
    ensures r.Some? ==> JsLength(r.value.topic) >= 3 && 3.0 <= r.value.num <= 8.0
    ensures body.None? ==> r.None?
    ensures body.Some? ==> var j := body.value;
      && (r.Some? <==>
           && Get(j, "topic").Some? && Get(j, "topic").value.JStr?
           && JsLength(Get(j, "topic").value.s) >= 3
           && (Get(j, "num").None? || (Get(j, "num").value.JNum? && 3.0 <= Get(j, "num").value.n <= 8.0))
           && OptionalExamList(Get(j, "sourceBias")) && OptionalYears(Get(j, "years")))
      && (r.Some? ==> Get(j, "topic") == Some(JStr(r.value.topic)))
      && (r.Some? && Get(j, "num").None? ==> r.value.num == 5.0)
      && (r.Some? && Get(j, "num").Some? ==> Get(j, "num") == Some(JNum(r.value.num)))
  {
    match body
    case None => None
    case Some(j) =>
      var topic := StringMin(Get(j, "topic"), 3);
      var num := match Get(j, "num")
        case None => Some(5.0)
        case Some(JNum(n)) => if 3.0 <= n <= 8.0 then Some(n) else None
        case _ => None;
      if topic.Some? && num.Some?
         && OptionalExamList(Get(j, "sourceBias")) && OptionalYears(Get(j, "years"))
      then Some(Request(topic.value, num.value))
      else None
  }

  /** A key the schema does not name changes nothing: zod drops unknown keys. */
  lemma ParseRequestIgnoresUnknownKeys(m: map<string, Json>, k: string, v: Json)
    requires k !in {"topic", "num", "sourceBias", "years"}
    ensures ParseRequest(Some(JObj(m[k := v]))) == ParseRequest(Some(JObj(m)))
  {
    var a, b := JObj(m[k := v]), JObj(m);
    assert Get(a, "topic") == Get(b, "topic") && Get(a, "num") == Get(b, "num");
    assert Get(a, "sourceBias") == Get(b, "sourceBias") && Get(a, "years") == Get(b, "years");
  }

  // ---------------------------------------------------------------- QuestionSchema

  /** What `QuestionSchema` demands of a question. */
  predicate Conforms(h: Host, q: Question) {
    && JsLength(q.statement) >= 10
    && |q.options| == 4 && (forall i | 0 <= i < 4 :: JsLength(q.options[i]) >= 2)
    && 0 <= q.correct <= 3
    && JsLength(q.source) >= 6
    && (q.link.LinkUrl? ==> h.parseUrl(q.link.url).Some?)
  }

  /** The texts of a list of JSON strings. */
  function Strings(xs: seq<Json>): (r: seq<string>)
    requires forall i | 0 <= i < |xs| :: xs[i].JStr?
    ensures |r| == |xs| && forall i | 0 <= i < |xs| :: xs[i] == JStr(r[i])
  {
    seq(|xs|, i requires 0 <= i < |xs| && xs[i].JStr? => xs[i].s)
  }

  /** `z.array(z.string().min(2)).length(4)` */
  function ParseOptions(v: Option<Json>): (r: Option<seq<string>>)
    ensures r.Some? ==> |r.value| == 4 && forall i | 0 <= i < 4 :: JsLength(r.value[i]) >= 2
    ensures r.Some? <==> v.Some? && v.value.JArr? && |v.value.items| == 4
                         && forall i | 0 <= i < 4 :: v.value.items[i].JStr? && JsLength(v.value.items[i].s) >= 2
    ensures r.Some? ==> forall i | 0 <= i < 4 :: v.value.items[i] == JStr(r.value[i])
  {
    match v
    case Some(JArr(xs)) =>
      if |xs| == 4 && forall i | 0 <= i < 4 :: xs[i].JStr? && JsLength(xs[i].s) >= 2
      then Some(Strings(xs))
      else None
    case _ => None
  }

  /** `z.number().int().min(0).max(3)` */
  function ParseCorrect(v: Option<Json>): (r: Option<int>)
    ensures r.Some? ==> 0 <= r.value <= 3 && v == Some(JNum(r.value as real))
    ensures r.Some? <==> v.Some? && v.value.JNum? && v.value.n.Floor as real == v.value.n
                         && 0.0 <= v.value.n <= 3.0
  {
    match v
    case Some(JNum(n)) => if n == n.Floor as real && 0.0 <= n <= 3.0 then Some(n.Floor) else None
    case _ => None
  }

  /** `z.string().url().nullable().optional()` */
  function ParseLinkField(h: Host, v: Option<Json>): (r: Option<LinkField>)
    ensures r == Some(NoLink) <==> v.None?
    ensures r == Some(NullLink) <==> v == Some(JNull)
    ensures r.Some? && r.value.LinkUrl? ==> v == Some(JStr(r.value.url)) && h.parseUrl(r.value.url).Some?
    ensures v.Some? && v.value.JStr? && h.parseUrl(v.value.s).Some? ==> r == Some(LinkUrl(v.value.s))
    ensures r.None? <==> v.Some? && !v.value.JNull? && !(v.value.JStr? && h.parseUrl(v.value.s).Some?)
  {
    match v
    case None => Some(NoLink)
    case Some(JNull) => Some(NullLink)
    case Some(JStr(s)) => if h.parseUrl(s).Some? then Some(LinkUrl(s)) else None
    case _ => None
  }

  /** `QuestionSchema.safeParse(v)`: the question when every property is valid, unknown
      properties dropped. */
  function ParseQuestion(h: Host, v: Json): (r: Option<Question>)
    ensures r.Some? ==> Conforms(h, r.value)
    ensures r.Some? <==>
      && StringMin(Get(v, "statement"), 10).Some?
      && ParseOptions(Get(v, "options")).Some?
      && ParseCorrect(Get(v, "correct")).Some?
      && StringMin(Get(v, "source"), 6).Some?
      && ParseLinkField(h, Get(v, "link")).Some?
      && Get(v, "approximate").Some? && Get(v, "approximate").value.JBool?
    ensures r.Some? ==>
      && Get(v, "statement") == Some(JStr(r.value.statement))
      && ParseOptions(Get(v, "options")) == Some(r.value.options)
      && Get(v, "correct") == Some(JNum(r.value.correct as real))
      && Get(v, "source") == Some(JStr(r.value.source))
      && ParseLinkField(h, Get(v, "link")) == Some(r.value.link)
      && Get(v, "approximate") == Some(JBool(r.value.approximate))
  {
    var statement := StringMin(Get(v, "statement"), 10);
    var options := ParseOptions(Get(v, "options"));
    var correct := ParseCorrect(Get(v, "correct"));
    var source := StringMin(Get(v, "source"), 6);
    var link := ParseLinkField(h, Get(v, "link"));
    var approximate := Get(v, "approximate");
    if statement.Some? && options.Some? && correct.Some? && source.Some? && link.Some?
       && approximate.Some? && approximate.value.JBool?
    then Some(Question(statement.value, options.value, correct.value, source.value, link.value,
                       approximate.value.b))
    else None
  }

  function OptionsToJson(options: seq<string>): (r: seq<Json>)
    ensures |r| == |options| && forall i | 0 <= i < |options| :: r[i] == JStr(options[i])
  {
    seq(|options|, i requires 0 <= i < |options| => JStr(options[i]))
  }

  /** A question as the JSON the service is asked to write (and the route sends back). */
  function QuestionToJson(q: Question): Json {
    var fields := map[
      "statement" := JStr(q.statement),
      "options" := JArr(OptionsToJson(q.options)),
      "correct" := JNum(q.correct as real),
      "source" := JStr(q.source),
      "approximate" := JBool(q.approximate)];
    match q.link
    case NoLink => JObj(fields)
    case NullLink => JObj(fields["link" := JNull])
    case LinkUrl(u) => JObj(fields["link" := JStr(u)])
  }

  lemma ParseOptionsOfJson(options: seq<string>)
    requires |options| == 4 && forall i | 0 <= i < 4 :: JsLength(options[i]) >= 2
    ensures ParseOptions(Some(JArr(OptionsToJson(options)))) == Some(options)
  {
    assert Strings(OptionsToJson(options)) == options;
  }

  lemma ParseLinkFieldOfJson(h: Host, q: Question)
    requires q.link.LinkUrl? ==> h.parseUrl(q.link.url).Some?
    ensures ParseLinkField(h, Get(QuestionToJson(q), "link")) == Some(q.link)
  {
    var v := QuestionToJson(q);
    match q.link
    case NoLink => assert Get(v, "link") == None;
    case NullLink => assert Get(v, "link") == Some(JNull);
    case LinkUrl(u) => assert Get(v, "link") == Some(JStr(u));
  }

  /** The schema accepts every conforming question written as JSON and gives it back. */
  lemma ParseQuestionRoundTrip(h: Host, q: Question)
    requires Conforms(h, q)
    ensures ParseQuestion(h, QuestionToJson(q)) == Some(q)
  {
    var v := QuestionToJson(q);
    assert Get(v, "statement") == Some(JStr(q.statement));
    assert Get(v, "options") == Some(JArr(OptionsToJson(q.options)));
    ParseOptionsOfJson(q.options);
    assert Get(v, "correct") == Some(JNum(q.correct as real));
    assert (q.correct as real).Floor == q.correct;
    assert Get(v, "source") == Some(JStr(q.source));
    assert Get(v, "approximate") == Some(JBool(q.approximate));
    ParseLinkFieldOfJson(h, q);
  }

  // ---------------------------------------------------------------- normalizeOptions

  /** `/^[A-D]\)/.test(t)`: the text starts with one of the four lettered prefixes. */
  predicate HasLetterPrefix(t: string): (b: bool)
    ensures b <==> |t| >= 2 && t[..2] in ["A)", "B)", "C)", "D)"]
  {
    if |t| < 2 then false
    else
      LetterRange(t);
      'A' <= t[0] <= 'D' && t[1] == ')'
  }

  /** The character class `[A-D]` followed by `)` spells out the four prefixes. */
  lemma LetterRange(t: string)
    requires |t| >= 2
    ensures 'A' <= t[0] <= 'D' && t[1] == ')' <==> t[..2] in ["A)", "B)", "C)", "D)"]
  {
    var p := t[..2];
    assert p == [t[0], t[1]];
    if 'A' <= t[0] <= 'D' {
      assert 'A' as int <= t[0] as int <= 'D' as int;
      assert t[0] == 'A' || t[0] == 'B' || t[0] == 'C' || t[0] == 'D';
    }
  }

  /** `letters[i]`, which reads `undefined` past the fourth position. */
  function OptionLetter(i: nat): (r: string)
    ensures |r| >= 1
    ensures i < 4 ==> |r| == 1 && r[0] as int == 'A' as int + i
    ensures i >= 4 ==> r == "undefined"
  {
    if i < 4 then ["ABCD"[i]] else "undefined"
  }

  /** A trimmed option text, lettered for position `i` unless it already is. */
  function Lettered(t: string, i: nat): (r: string)
    ensures |t| <= |r| && r[|r| - |t|..] == t
    ensures r == t <==> HasLetterPrefix(t)
    ensures r != t ==> r[..|r| - |t|] == OptionLetter(i) + ") "
    ensures i < 4 ==> HasLetterPrefix(r)
  {
    if HasLetterPrefix(t) then t
    else
      var p := OptionLetter(i) + ") ";
      var r := p + t;
      assert r[..|p|] == p && r[|p|..] == t;
      assert |r| > |t|;
      assert i < 4 ==> r[0] == p[0] && r[1] == ')';
      r
  }

  /** One option of `normalizeOptions`: the trimmed text, kept as it is exactly when it
      already starts with a letter A–D and `)`, and otherwise prefixed with the letter of
      its position; within the first four positions the result is always lettered. */
  function NormalizeOption(o: string, i: nat): (r: string)
    ensures |Trim(o)| <= |r| && r[|r| - |Trim(o)|..] == Trim(o)
    ensures r == Trim(o) <==> HasLetterPrefix(Trim(o))
    ensures r != Trim(o) ==> r[..|r| - |Trim(o)|] == OptionLetter(i) + ") "
    ensures i < 4 ==> HasLetterPrefix(r)
  {
    Lettered(Trim(o), i)
  }

  /** `normalizeOptions(arr)`: every option normalised against its position. */
  function NormalizeOptions(arr: seq<string>): (r: seq<string>)
    ensures |r| == |arr| && forall i | 0 <= i < |arr| :: r[i] == NormalizeOption(arr[i], i)
    ensures forall i | 0 <= i < |arr| && i < 4 :: HasLetterPrefix(r[i])
  {
    seq(|arr|, i requires 0 <= i < |arr| => NormalizeOption(arr[i], i))
  }

  /** A lettered option without trailing whitespace is left as it is. */
  lemma LetteredOptionFixed(r: string, i: nat)
    requires HasLetterPrefix(r) && !IsSpace(r[|r| - 1])
    ensures NormalizeOption(r, i) == r
  {
    assert 'A' as int <= r[0] as int <= 'D' as int;
    TrimOfTrimmed(r);
  }

  lemma NormalizeOptionFixed(o: string, i: nat)
    requires i < 4 && Trim(o) != []
    ensures NormalizeOption(NormalizeOption(o, i), i) == NormalizeOption(o, i)
  {
    var t := Trim(o);
    var r := NormalizeOption(o, i);
    assert r[|r| - 1] == t[|t| - 1] by {
      assert r[|r| - |t|..][|t| - 1] == t[|t| - 1];
    }
    LetteredOptionFixed(r, i);
  }

  /** Lettering options a second time changes nothing, as long as no option is blank (a
      blank option becomes `"A) "`, which trims to `"A)"`). */
  lemma NormalizeOptionsIdempotent(arr: seq<string>)
    requires |arr| <= 4
    requires forall i | 0 <= i < |arr| :: Trim(arr[i]) != []
    ensures NormalizeOptions(NormalizeOptions(arr)) == NormalizeOptions(arr)
  {
    var r := NormalizeOptions(arr);
    forall i | 0 <= i < |arr| ensures NormalizeOption(r[i], i) == r[i] {
      NormalizeOptionFixed(arr[i], i);
    }
  }

  // ---------------------------------------------------------------- capWords

  const MaxWords: nat := 110

  /** The words of the first 110 pieces joined back together. */
  lemma CutPiecesWords(pieces: seq<string>)
    requires |pieces| > MaxWords
    requires forall k | 0 <= k < |pieces| :: NoSpace(pieces[k])
    requires forall k | 0 < k < |pieces| - 1 :: pieces[k] != []
    ensures Words(Trim(Join(pieces[..MaxWords], " "))) == NonEmpty(pieces[..MaxWords])
  {
    var kept := pieces[..MaxWords];
    assert forall k | 0 <= k < |kept| :: NoSpace(kept[k]);
    assert forall k | 0 < k < |kept| - 1 :: kept[k] != [];
    WordsTrim(Join(kept, " "));
    WordsJoin(kept);
  }

  /** The first 110 pieces joined and trimmed are their words joined by single spaces: only
      the first piece can be empty, and the space after it is trimmed away. */
  lemma CutPiecesJoin(pieces: seq<string>)
    requires |pieces| > MaxWords
    requires forall k | 0 <= k < |pieces| :: NoSpace(pieces[k])
    requires forall k | 0 < k < |pieces| - 1 :: pieces[k] != []
    ensures Trim(Join(pieces[..MaxWords], " ")) == Join(NonEmpty(pieces[..MaxWords]), " ")
  {
    KeptPieces(pieces);
    TrimJoinPieces(pieces[..MaxWords]);
  }

  /** Among the first 110 of more than 110 pieces only the first can be empty. */
  lemma KeptPieces(pieces: seq<string>)
    requires |pieces| > MaxWords
    requires forall k | 0 <= k < |pieces| :: NoSpace(pieces[k])
    requires forall k | 0 < k < |pieces| - 1 :: pieces[k] != []
    ensures forall k | 0 <= k < MaxWords :: NoSpace(pieces[..MaxWords][k])
    ensures forall k | 0 < k < MaxWords :: pieces[..MaxWords][k] != []
  {
  }

  /** Pieces of which only the first may be empty, joined and trimmed, are their non-empty
      pieces joined. */
  lemma TrimJoinPieces(ps: seq<string>)
    requires |ps| >= 1
    requires forall k | 0 <= k < |ps| :: NoSpace(ps[k])
    requires forall k | 0 < k < |ps| :: ps[k] != []
    ensures Trim(Join(ps, " ")) == Join(NonEmpty(ps), " ")
  {
    if ps[0] == [] && |ps| >= 2 {
      TrimJoinLeadingEmpty(ps);
    } else if ps[0] != [] {
      NonEmptyOfNonEmpty(ps);
      JoinTrimmed(ps);
    }
  }

  lemma TrimJoinLeadingEmpty(ps: seq<string>)
    requires |ps| >= 2 && ps[0] == []
    requires forall k | 0 < k < |ps| :: ps[k] != [] && NoSpace(ps[k])
    ensures Trim(Join(ps, " ")) == Join(NonEmpty(ps), " ")
  {
    var rest := ps[1..];
    RestPieces(ps);
    assert ps == [[]] + rest;
    TrimJoinAfterEmpty(rest);
  }

  lemma RestPieces(ps: seq<string>)
    requires |ps| >= 2
    requires forall k | 0 < k < |ps| :: ps[k] != [] && NoSpace(ps[k])
    ensures forall k | 0 <= k < |ps| - 1 :: ps[1..][k] != [] && NoSpace(ps[1..][k])
  {
    forall k | 0 <= k < |ps| - 1 ensures ps[1..][k] != [] && NoSpace(ps[1..][k]) {
      assert ps[1..][k] == ps[k + 1];
    }
  }

  /** The words of all pieces are those of the first 110 followed by those of the rest. */
  lemma CutPiecesSplit(pieces: seq<string>)
    requires |pieces| > MaxWords
    ensures NonEmpty(pieces) == NonEmpty(pieces[..MaxWords]) + NonEmpty(pieces[MaxWords..])
  {
    var kept := pieces[..MaxWords];
    assert pieces == kept + pieces[MaxWords..];
    NonEmptyAppend(kept, pieces[MaxWords..]);
  }

  /** `capWords(s)` exactly as written: it counts the pieces of `s.split(/\s+/)` on the
      untrimmed text and keeps the words among the first 110 pieces. The words kept are a
      prefix of the statement's words, never more than 110, and all of them when the pieces
      fit. */
  function CapWordsAsWritten(s: string): (r: string)
    ensures |Words(r)| <= MaxWords
    ensures |Words(r)| <= |Words(s)| && Words(r) == Words(s)[..|Words(r)|]
    ensures |Split(s)| <= MaxWords ==> Words(r) == Words(s)
    ensures |Split(s)| > MaxWords ==> Words(r) == NonEmpty(Split(s)[..MaxWords])
    ensures |Split(s)| <= MaxWords ==> r == Trim(s)
    ensures |Split(s)| > MaxWords ==> r == Join(Words(r), " ")
  {
    var pieces := Split(s);
    assert Words(s) == NonEmpty(pieces);
    if |pieces| <= MaxWords then
      WordsTrim(s);
      Trim(s)
    else
      var kept := pieces[..MaxWords];
      var r := Trim(Join(kept, " "));
      CutPiecesWords(pieces);
      CutPiecesSplit(pieces);
      CutPiecesJoin(pieces);
      assert Words(r) == NonEmpty(kept);
      assert Words(s)[..|Words(r)|] == Words(r);
      r
  }

  /** Pieces with an empty first piece and no other empty piece: the words are the rest. */
  lemma DropLeadingEmpty(ps: seq<string>)
    requires |ps| >= 1 && ps[0] == []
    requires forall k | 0 < k < |ps| :: ps[k] != []
    ensures NonEmpty(ps) == ps[1..]
  {
    var rest := ps[1..];
    assert ps == [[]] + rest;
    forall k | 0 <= k < |rest| ensures rest[k] != [] {
      assert rest[k] == ps[k + 1];
    }
    NonEmptyDropEmpty(rest);
    NonEmptyOfNonEmpty(rest);
  }

  /** A statement of exactly 110 words that begins with whitespace (and does not end with
      it) loses its last word: the empty piece in front of the leading whitespace is counted
      as one of the 110. */
  lemma CapWordsAsWrittenDropsAWord(s: string)
    requires s != [] && IsSpace(s[0]) && !IsSpace(s[|s| - 1])
    requires |Words(s)| == MaxWords
    ensures Words(CapWordsAsWritten(s)) == Words(s)[..MaxWords - 1]
  {
    var ps := Split(s);
    assert forall k | 0 < k < |ps| :: ps[k] != [];
    DropLeadingEmpty(ps);
    assert |ps| == MaxWords + 1;
    var p := ps[..MaxWords];
    assert forall k | 0 < k < |p| :: p[k] == ps[k];
    DropLeadingEmpty(p);
    assert p[1..] == ps[1..][..MaxWords - 1];
  }

  /** On trimmed text the pieces are the words, so counting pieces counts words. */
  lemma CapWordsOfTrimmed(t: string)
    requires t == [] || (!IsSpace(t[0]) && !IsSpace(t[|t| - 1]))
    ensures Words(CapWordsAsWritten(t)) == if |Words(t)| <= MaxWords then Words(t) else Words(t)[..MaxWords]
  {
    if t != [] {
      SplitOfTrimmed(t);
      if |Words(t)| > MaxWords {
        NonEmptyOfNonEmpty(Words(t)[..MaxWords]);
      }
    }
  }

  /** The as-written function keeps the intended words whenever the statement does not begin
      with whitespace: only a leading empty piece makes the two differ. */
  lemma CapWordsAsWrittenAgrees(s: string)
    requires s == [] || !IsSpace(s[0])
    ensures Words(CapWordsAsWritten(s)) == Words(CapWords(s))
  {
    var ps := Split(s);
    if |ps| > MaxWords {
      var kept := ps[..MaxWords];
      assert forall k | 0 <= k < |kept| :: kept[k] == ps[k] && kept[k] != [];
      NonEmptyOfNonEmpty(kept);
      CutPiecesSplit(ps);
      assert Words(s)[..MaxWords] == kept;
    }
  }

  /** `capWords` as evidently intended: the first 110 words of the statement, or the trimmed
      statement when it has no more than 110 words. It is the as-written function applied to
      the trimmed text, so leading whitespace no longer counts as a piece. */
  function CapWords(s: string): (r: string)
    ensures Words(r) == if |Words(s)| <= MaxWords then Words(s) else Words(s)[..MaxWords]
  {
    var t := Trim(s);
    WordsTrim(s);
    CapWordsOfTrimmed(t);
    CapWordsAsWritten(t)
  }

  // ---------------------------------------------------------------- the batch

  /** What the route promises of every question it returns. */
  predicate Delivered(h: Host, q: Question) {
    && |Words(q.statement)| <= MaxWords
    && |q.options| == 4 && (forall i | 0 <= i < 4 :: HasLetterPrefix(q.options[i]))
    && 0 <= q.correct <= 3
    && JsLength(q.source) >= 6
    && (q.link.LinkUrl? ==> h.parseUrl(q.link.url).Some?)
  }

  predicate AllDelivered(h: Host, qs: seq<Question>) {
    forall k | 0 <= k < |qs| :: Delivered(h, qs[k])
  }

  lemma AllDeliveredOne(h: Host, q: Question)
    requires Delivered(h, q)
    ensures AllDelivered(h, [q])
  {
  }

  lemma AllDeliveredAppend(h: Host, p: seq<Question>, qs: seq<Question>)
    requires AllDelivered(h, p) && AllDelivered(h, qs)
    ensures AllDelivered(h, p + qs)
  {
    assert forall k | |p| <= k < |p| + |qs| :: (p + qs)[k] == qs[k - |p|];
  }

  /** The normalised copy of a validated question: only the statement and the options
      change. */
  function Normalize(h: Host, q: Question): (r: Question)
    requires Conforms(h, q)
    ensures Delivered(h, r)
    ensures r.correct == q.correct && r.source == q.source && r.link == q.link
    ensures r.approximate == q.approximate
    ensures r.statement == CapWordsAsWritten(q.statement)
    ensures |Words(r.statement)| <= MaxWords
    ensures Words(r.statement) == Words(q.statement)[..|Words(r.statement)|]
    ensures r.options == NormalizeOptions(q.options)
  {
    Question(CapWordsAsWritten(q.statement), NormalizeOptions(q.options), q.correct, q.source, q.link, q.approximate)
  }

  /** What one candidate contributes: its normalised copy when it passes `QuestionSchema`,
      nothing when it fails. */
  function Keep(h: Host, v: Json): (r: seq<Question>)
    ensures |r| <= 1 && AllDelivered(h, r)
    ensures r == [] <==> ParseQuestion(h, v).None?
  {
    match ParseQuestion(h, v)
    case Some(q) =>
      var n := Normalize(h, q);
      AllDeliveredOne(h, n);
      [n]
    case None => []
  }

  /** The loop over the candidates: each one is validated and kept or skipped on its own. */
  function Survivors(h: Host, items: seq<Json>): (r: seq<Question>)
    ensures |r| <= |items|
    ensures AllDelivered(h, r)
    decreases |items|
  {
    if items == [] then []
    else
      var first := Keep(h, items[0]);
      var rest := Survivors(h, items[1..]);
      AllDeliveredAppend(h, first, rest);
      first + rest
  }

  function KeepOf(h: Host): Json -> seq<Question> {
    v => Keep(h, v)
  }

  lemma {:induction false} SurvivorsConcatMap(h: Host, items: seq<Json>)
    ensures Survivors(h, items) == ConcatMap(KeepOf(h), items)
    decreases |items|
  {
    if items != [] {
      SurvivorsConcatMap(h, items[1..]);
      assert KeepOf(h)(items[0]) == Keep(h, items[0]);
    }
  }

  /** The batch is filtered item by item: the survivors of two runs of candidates are the
      survivors of each run, in order. */
  lemma SurvivorsAppend(h: Host, a: seq<Json>, b: seq<Json>)
    ensures Survivors(h, a + b) == Survivors(h, a) + Survivors(h, b)
  {
    SurvivorsConcatMap(h, a + b);
    SurvivorsConcatMap(h, a);
    SurvivorsConcatMap(h, b);
    ConcatMapAppend(KeepOf(h), a, b);
  }

  /** One invalid candidate does not change what happens to the others. */
  lemma InvalidCandidateIsDropped(h: Host, a: seq<Json>, bad: Json, b: seq<Json>)
    requires ParseQuestion(h, bad).None?
    ensures Survivors(h, a + [bad] + b) == Survivors(h, a + b)
  {
    SurvivorsAppend(h, a + [bad], b);
    SurvivorsAppend(h, a, [bad]);
    SurvivorsAppend(h, a, b);
  }

  /** A candidate that passes the schema is kept, normalised, between the survivors of the
      candidates before it and those after it. */
  lemma ValidCandidateIsKept(h: Host, a: seq<Json>, good: Json, b: seq<Json>)
    requires ParseQuestion(h, good).Some?
    ensures Survivors(h, a + [good] + b)
         == Survivors(h, a) + [Normalize(h, ParseQuestion(h, good).value)] + Survivors(h, b)
  {
    SurvivorsAppend(h, a + [good], b);
    SurvivorsAppend(h, a, [good]);
    assert Survivors(h, [good]) == Keep(h, good);
  }

  /** `for (const q of parsedJson.questions ?? [])`: reading `questions` of `null` throws; a
      missing or null list is empty; a string is iterated character by character; a number,
      boolean or object is not iterable and throws. */
  function Candidates(parsed: Json): (r: Option<seq<Json>>)
    ensures parsed.JNull? ==> r.None?
    ensures !parsed.JNull? && (Get(parsed, "questions").None? || Get(parsed, "questions") == Some(JNull))
            ==> r == Some([])
    ensures Get(parsed, "questions").Some? && Get(parsed, "questions").value.JArr?
            ==> r == Some(Get(parsed, "questions").value.items)
    ensures Get(parsed, "questions").Some? && Get(parsed, "questions").value.JStr? ==>
      var text := Get(parsed, "questions").value.s;
      r.Some? && |r.value| == |text| && forall i | 0 <= i < |text| :: r.value[i] == JStr([text[i]])
    ensures Get(parsed, "questions").Some?
            && (Get(parsed, "questions").value.JNum? || Get(parsed, "questions").value.JBool?
                || Get(parsed, "questions").value.JObj?)
            ==> r.None?
  {
    if parsed.JNull? then None
    else match Get(parsed, "questions")
      case None => Some([])
      case Some(JNull) => Some([])
      case Some(JArr(xs)) => Some(xs)
      case Some(JStr(s)) => Some(seq(|s|, i requires 0 <= i < |s| => JStr([s[i]])))
      case Some(_) => None
  }

  /** `POST /api/generate-questions`. `body` is the request body as parsed JSON, `hasKey`
      whether `OPENAI_API_KEY` is set, `upstream` the completion call's outcome. Questions
      come back only when the request is valid, the key is present and the service answered;
      each one is delivered in shape, and there are never more of them than candidates. */
  function Post(h: Host, body: Option<Json>, hasKey: bool, upstream: Upstream): (r: Reply)
    ensures Status(r) == 200 <==> r.Questions?
    ensures r.Questions? ==> ParseRequest(body).Some? && hasKey && upstream.Answered?
    ensures r.Questions? ==> AllDelivered(h, r.items)
    ensures ParseRequest(body).None? ==> r == Failed(Exception)
    ensures ParseRequest(body).Some? && !hasKey ==> r == Failed(MissingApiKey)
    ensures ParseRequest(body).Some? && hasKey && upstream.Threw? ==> r == Failed(Exception)
    ensures ParseRequest(body).Some? && hasKey && upstream.Answered? ==>
      var parsed := h.parseJson(upstream.content.GetOr("{}"));
      r == if parsed.Some? && Candidates(parsed.value).Some?
           then Questions(Survivors(h, Candidates(parsed.value).value))
           else Failed(Exception)
  {
    match ParseRequest(body)
    case None => Failed(Exception)
    case Some(_) =>
      if !hasKey then Failed(MissingApiKey)
      else match upstream
        case Threw => Failed(Exception)
        case Answered(content) =>
          match h.parseJson(content.GetOr("{}"))
          case None => Failed(Exception)
          case Some(parsed) =>
            match Candidates(parsed)
            case None => Failed(Exception)
            case Some(items) => Questions(Survivors(h, items))
  }

  /** With a valid request and a key, an answer whose `questions` is an array is answered
      with the survivors of that array. */
  lemma AnsweredBatchIsFiltered(h: Host, body: Option<Json>, content: Option<string>, m: map<string, Json>)
    requires ParseRequest(body).Some?
    requires h.parseJson(content.GetOr("{}")) == Some(JObj(m))
    requires "questions" in m && m["questions"].JArr?
    ensures Post(h, body, true, Answered(content)) == Questions(Survivors(h, m["questions"].items))
  {
    var xs := m["questions"].items;
    assert Get(JObj(m), "questions") == Some(JArr(xs));
    assert Candidates(JObj(m)) == Some(xs);
  }

  /** Once the request is valid, the reply depends only on the key and on the service's
      answer: the topic and the count shape the prompt alone, so `num` is no cap on the
      number of questions returned. */
  lemma ReplyIgnoresRequest(h: Host, b1: Option<Json>, b2: Option<Json>, hasKey: bool, upstream: Upstream)
    requires ParseRequest(b1).Some? && ParseRequest(b2).Some?
    ensures Post(h, b1, hasKey, upstream) == Post(h, b2, hasKey, upstream)
  {
  }
}

=== FILE: resources.dfy ===
/** The rule-based resolver of `lib/resources.ts`: an ordered table of keyword rules, each
    with a canned bundle of two videos and two reading materials, scanned first match first,
    and a generic bundle built from the title when no rule matches. */
module Resources {
  import opened Wrappers
  import opened JsText
  import opened Platform
  import opened YouTube

  /** Study resources for one topic (`ResourceBundle`). */
  datatype ResourceBundle = ResourceBundle(videos: seq<Link>, materials: seq<Link>)

  /** A keyword of a rule: a plain string, matched as a case-insensitive substring, or the
      source of a regular expression with the `i` flag. */
  datatype Keyword = Literal(text: string) | Pattern(source: string)

  datatype Rule = Rule(keywords: seq<Keyword>, resources: ResourceBundle)

  const KhanBase: string := "https://pt.khanacademy.org/"

  /** `path.replace(/^\/+/, "")`: drops the whole leading run of slashes and nothing else. */
  function StripLeadingSlashes(path: string): (r: string)
    ensures |r| <= |path| && r == path[|path| - |r|..]
    ensures forall i | 0 <= i < |path| - |r| :: path[i] == '/'
    ensures r == [] || r[0] != '/'
    decreases |path|
  {
    if path != [] && path[0] == '/' then
      var r := StripLeadingSlashes(path[1..]);
      assert forall i | 0 < i < |path| - |r| :: path[i] == path[1..][i - 1];
      assert path[1..][|path| - 1 - |r|..] == path[|path| - |r|..];
      r
    else path
  }

  /** `ka(path)`: a Khan Academy page; the path is appended without its leading slashes, so
      the base URL's own slash is never doubled. */
  function Ka(path: string): (r: string)
    ensures |KhanBase| <= |r| && r[..|KhanBase|] == KhanBase
    ensures var rest := r[|KhanBase|..];
      && |rest| <= |path| && rest == path[|path| - |rest|..]
      && (forall i | 0 <= i < |path| - |rest| :: path[i] == '/')
      && (rest == [] || rest[0] != '/')
  {
    var rest := StripLeadingSlashes(path);
    assert (KhanBase + rest)[|KhanBase|..] == rest;
    KhanBase + rest
  }

  /** The shape every canned bundle has: two videos and two materials. */
  function Canned(v1: Link, v2: Link, m1: Link, m2: Link): (b: ResourceBundle)
    ensures b.videos == [v1, v2] && b.materials == [m1, m2]
  {
    ResourceBundle([v1, v2], [m1, m2])
  }

  /** `RULES`, in declaration order: the more specific topics come first. */
  function Rules(h: Host): (rules: seq<Rule>)
    ensures |rules| == 18
    ensures forall i | 0 <= i < |rules| ::
      |rules[i].resources.videos| == 2 && |rules[i].resources.materials| == 2
  {
    seq(18, i requires 0 <= i < 18 => RuleAt(h, i))
  }

  /** Entry `i` of the table. */
  function RuleAt(h: Host, i: nat): (r: Rule)
    requires i < 18
    ensures |r.resources.videos| == 2 && |r.resources.materials| == 2
  {
    match i
    case 0 => RuleQuadratics(h)
    case 1 => RuleSets(h)
    case 2 => RuleLinearFunctions(h)
    case 3 => RuleProgressions(h)
    case 4 => RuleLogarithms(h)
    case 5 => RuleTrigonometry(h)
    case 6 => RulePlaneGeometry(h)
    case 7 => RuleSolidGeometry(h)
    case 8 => RuleCounting(h)
    case 9 => RuleKinematics(h)
    case 10 => RuleNewtonsLaws(h)
    case 11 => RuleWorkAndEnergy(h)
    case 12 => RuleAtomicStructure(h)
    case 13 => RuleStoichiometry(h)
    case 14 => RuleCytology(h)
    case 15 => RuleGenetics(h)
    case 16 => RuleFrenchRevolution(h)
    case _ => RuleMorphology(h)
  }

  function RuleQuadratics(h: Host): (r: Rule)
    ensures |r.resources.videos| == 2 && |r.resources.materials| == 2
  {
    Rule([Pattern("equac(ões|oes)? do 2(º|o) grau"), Pattern("fun(ç|c)ão quadrát"), Pattern("v[ée]rtice|delta|Δ")],
      Canned(
        Link("Equações do 2º grau (Δ, raízes) — YouTube", ToYouTubeSearch(h, "equações do 2º grau fuvest resolução")),
        Link("Função quadrática (gráfico e vértice) — YouTube", ToYouTubeSearch(h, "função quadrática gráfico vértice fuvest")),
        Link("Khan Academy — Quadráticas", Ka("math/algebra/quadratics")),
        Link("Mundo Educação — Equação do 2º grau", "https://mundoeducacao.uol.com.br/matematica/equacao-2-grau.htm")))
  }

  function RuleSets(h: Host): (r: Rule)
    ensures |r.resources.videos| == 2 && |r.resources.materials| == 2
  {
    Rule([Pattern("conjuntos|intervalos")],
      Canned(
        Link("Conjuntos e operações — YouTube", ToYouTubeSearch(h, "conjuntos operações matemática fuvest")),
        Link("Intervalos reais na reta — YouTube", ToYouTubeSearch(h, "intervalos reais notação fuvest")),
        Link("Brasil Escola — Conjuntos", "https://brasilescola.uol.com.br/matematica/conjuntos.htm"),
        Link("Khan Academy — Fundamentos", Ka("math/geometry/hs-geo-foundations"))))
  }

  function RuleLinearFunctions(h: Host): (r: Rule)
    ensures |r.resources.videos| == 2 && |r.resources.materials| == 2
  {
    Rule([Pattern("fun(ç|c)(ão|oes)? afim|fun(ç|c)(ões)?\\b")],
      Canned(
        Link("Função afim: coeficientes e gráfico — YouTube", ToYouTubeSearch(h, "função afim coeficientes gráfico fuvest")),
        Link("Domínio e imagem — YouTube", ToYouTubeSearch(h, "domínio e imagem função fuvest")),
        Link("Khan Academy — Funções", Ka("math/algebra/x2f8bb11595b61c86:functions")),
        Link("Stoodi — Função Afim (resumo)", "https://www.stoodi.com.br/materias/matematica/funcao-afim/")))
  }

  function RuleProgressions(h: Host): (r: Rule)
    ensures |r.resources.videos| == 2 && |r.resources.materials| == 2
  {
    Rule([Pattern("pa\\/?pg|progress(ões|oes) arit|geom(étricas|etricas)")],
      Canned(
        Link("PA e PG — teoria/questões — YouTube", ToYouTubeSearch(h, "PA PG fuvest questões")),
        Link("Soma de termos — YouTube", ToYouTubeSearch(h, "soma dos termos PA PG fuvest")),
        Link("Khan Academy — Sequências (PA/PG)", Ka("math/algebra/sequences")),
        Link("Brasil Escola — Progressões", "https://brasilescola.uol.com.br/matematica/progressao-aritmetica.htm")))
  }

  function RuleLogarithms(h: Host): (r: Rule)
    ensures |r.resources.videos| == 2 && |r.resources.materials| == 2
  {
    Rule([Pattern("logaritmos?")],
      Canned(
        Link("Logaritmos: propriedades — YouTube", ToYouTubeSearch(h, "logaritmos propriedades fuvest")),
        Link("Equações logarítmicas — YouTube", ToYouTubeSearch(h, "equações logarítmicas fuvest")),
        Link("Khan Academy — Logaritmos", Ka("math/algebra2/exponential-and-logarithmic-functions")),
        Link("Mundo Educação — Logaritmos", "https://mundoeducacao.uol.com.br/matematica/logaritmos.htm")))
  }

  function RuleTrigonometry(h: Host): (r: Rule)
    ensures |r.resources.videos| == 2 && |r.resources.materials| == 2
  {
    Rule([Pattern("trigonometria|lei dos senos|lei dos cossenos")],
      Canned(
        Link("Trigonometria no triângulo — YouTube", ToYouTubeSearch(h, "lei dos senos lei dos cossenos fuvest")),
        Link("Razões trigonométricas — YouTube", ToYouTubeSearch(h, "razões trigonométricas triângulo fuvest")),
        Link("Khan Academy — Trigonometria", Ka("math/trigonometry")),
        Link("Brasil Escola — Lei dos Senos", "https://brasilescola.uol.com.br/matematica/lei-dos-senos.htm")))
  }

  function RulePlaneGeometry(h: Host): (r: Rule)
    ensures |r.resources.videos| == 2 && |r.resources.materials| == 2
  {
    Rule([Pattern("geometria plana|áreas|semelhança|polígonos")],
      Canned(
        Link("Geometria plana: áreas/semelhança — YouTube", ToYouTubeSearch(h, "geometria plana áreas semelhança fuvest")),
        Link("Polígonos notáveis — YouTube", ToYouTubeSearch(h, "polígonos semelhança fuvest")),
        Link("Khan Academy — Geometria", Ka("math/geometry")),
        Link("Mundo Educação — Semelhança", "https://mundoeducacao.uol.com.br/matematica/semelhanca-triangulos.htm")))
  }

  function RuleSolidGeometry(h: Host): (r: Rule)
    ensures |r.resources.videos| == 2 && |r.resources.materials| == 2
  {
    Rule([Pattern("geometria espacial|prismas|cilindros|cones|esferas")],
      Canned(
        Link("Geometria espacial: volumes — YouTube", ToYouTubeSearch(h, "geometria espacial volumes prismas cilindros cones esferas fuvest")),
        Link("Áreas lateral/total — YouTube", ToYouTubeSearch(h, "área lateral total cilindro cone fuvest")),
        Link("Khan Academy — Sólidos", Ka("math/geometry/hs-geo-solids")),
        Link("Brasil Escola — Geometria espacial", "https://brasilescola.uol.com.br/matematica/geometria-espacial.htm")))
  }

  function RuleCounting(h: Host): (r: Rule)
    ensures |r.resources.videos| == 2 && |r.resources.materials| == 2
  {
    Rule([Pattern("contagem|probabilid")],
      Canned(
        Link("Princípios de contagem — YouTube", ToYouTubeSearch(h, "princípio fundamental da contagem fuvest")),
        Link("Probabilidade básica — YouTube", ToYouTubeSearch(h, "probabilidade exercícios fuvest")),
        Link("Khan Academy — Probabilidade", Ka("math/statistics-probability/probability-library")),
        Link("Mundo Educação — Probabilidade", "https://mundoeducacao.uol.com.br/matematica/probabilidade.htm")))
  }

  function RuleKinematics(h: Host): (r: Rule)
    ensures |r.resources.videos| == 2 && |r.resources.materials| == 2
  {
    Rule([Pattern("cinemát(ic|)a|mruv?|lançamentos?")],
      Canned(
        Link("MRU/MRUV — gráficos — YouTube", ToYouTubeSearch(h, "mru mruv gráficos fuvest")),
        Link("Lançamento oblíquo — YouTube", ToYouTubeSearch(h, "lançamento oblíquo alcance altura fuvest")),
        Link("Khan Academy — Cinemática", Ka("science/physics/one-dimensional-motion")),
        Link("Brasil Escola — MRU/MRUV", "https://brasilescola.uol.com.br/fisica/movimento-uniforme.htm")))
  }

  function RuleNewtonsLaws(h: Host): (r: Rule)
    ensures |r.resources.videos| == 2 && |r.resources.materials| == 2
  {
    Rule([Pattern("leis de newton|atrito")],
      Canned(
        Link("Leis de Newton — exercícios — YouTube", ToYouTubeSearch(h, "leis de newton fuvest exercícios atrito")),
        Link("Blocos e planos inclinados — YouTube", ToYouTubeSearch(h, "atrito planos inclinados blocos fuvest")),
        Link("Khan Academy — Forças/Newton", Ka("science/physics/forces-newtonian-mechanics")),
        Link("Mundo Educação — Atrito", "https://mundoeducacao.uol.com.br/fisica/forca-de-atrito.htm")))
  }

  function RuleWorkAndEnergy(h: Host): (r: Rule)
    ensures |r.resources.videos| == 2 && |r.resources.materials| == 2
  {
    Rule([Pattern("trabalho.*energia|pot(ê|e)ncia")],
      Canned(
        Link("Trabalho/Energia — YouTube", ToYouTubeSearch(h, "trabalho energia potência fuvest")),
        Link("Conservação de energia — YouTube", ToYouTubeSearch(h, "conservação de energia mecânica fuvest")),
        Link("Khan Academy — Trabalho/Energia", Ka("science/physics/work-and-energy")),
        Link("Brasil Escola — Energia mecânica", "https://brasilescola.uol.com.br/fisica/energia-mecanica.htm")))
  }

  function RuleAtomicStructure(h: Host): (r: Rule)
    ensures |r.resources.videos| == 2 && |r.resources.materials| == 2
  {
    Rule([Pattern("estrutura at(ô|o)mica|tabela peri(ó|o)dica|liga(ç|c)ões")],
      Canned(
        Link("Estrutura atômica — YouTube", ToYouTubeSearch(h, "estrutura atômica níveis subníveis fuvest")),
        Link("Ligações químicas — YouTube", ToYouTubeSearch(h, "ligações iônicas covalentes metálicas fuvest")),
        Link("Khan Academy — Propriedades atômicas", Ka("science/chemistry/atomic-structure-and-properties")),
        Link("Brasil Escola — Ligações químicas", "https://brasilescola.uol.com.br/quimica/ligacoes-quimicas.htm")))
  }

  function RuleStoichiometry(h: Host): (r: Rule)
    ensures |r.resources.videos| == 2 && |r.resources.materials| == 2
  {
    Rule([Pattern("estequiometria|reagente limitante")],
      Canned(
        Link("Estequiometria — YouTube", ToYouTubeSearch(h, "estequiometria exercícios fuvest")),
        Link("Reagente limitante — YouTube", ToYouTubeSearch(h, "reagente limitante fuvest")),
        Link("Khan Academy — Estequiometria", Ka("science/chemistry/chemical-reactions-stoichiome")),
        Link("Mundo Educação — Estequiometria", "https://mundoeducacao.uol.com.br/quimica/estequiometria.htm")))
  }

  function RuleCytology(h: Host): (r: Rule)
    ensures |r.resources.videos| == 2 && |r.resources.materials| == 2
  {
    Rule([Pattern("citologia|organelas|transporte de membrana")],
      Canned(
        Link("Citologia — YouTube", ToYouTubeSearch(h, "citologia organelas transporte membrana fuvest")),
        Link("Membrana plasmática — YouTube", ToYouTubeSearch(h, "membrana plasmática transporte fuvest")),
        Link("Khan Academy — Células", Ka("science/biology/structure-of-a-cell")),
        Link("Brasil Escola — Organelas", "https://brasilescola.uol.com.br/biologia/organela-celular.htm")))
  }

  function RuleGenetics(h: Host): (r: Rule)
    ensures |r.resources.videos| == 2 && |r.resources.materials| == 2
  {
    Rule([Pattern("mendel|gen(é|e)tica")],
      Canned(
        Link("Leis de Mendel — YouTube", ToYouTubeSearch(h, "leis de mendel diibridismo fuvest")),
        Link("Probabilidade em genética — YouTube", ToYouTubeSearch(h, "probabilidade genética fuvest")),
        Link("Khan Academy — Genética", Ka("science/biology/classical-genetics")),
        Link("Mundo Educação — Leis de Mendel", "https://mundoeducacao.uol.com.br/biologia/leis-mendel.htm")))
  }

  function RuleFrenchRevolution(h: Host): (r: Rule)
    ensures |r.resources.videos| == 2 && |r.resources.materials| == 2
  {
    Rule([Pattern("revolu(ç|c)ão francesa")],
      Canned(
        Link("Revolução Francesa — YouTube", ToYouTubeSearch(h, "revolução francesa fuvest")),
        Link("Período do Terror — YouTube", ToYouTubeSearch(h, "revolução francesa período do terror fuvest")),
        Link("Brasil Escola — Revolução Francesa", "https://brasilescola.uol.com.br/historia/revolucao-francesa.htm"),
        Link("Mundo Educação — Fases", "https://mundoeducacao.uol.com.br/historiageral/revolucao-francesa.htm")))
  }

  function RuleMorphology(h: Host): (r: Rule)
    ensures |r.resources.videos| == 2 && |r.resources.materials| == 2
  {
    Rule([Pattern("classes de palavras|morfologia|ortografia")],
      Canned(
        Link("Classes de palavras — YouTube", ToYouTubeSearch(h, "classes de palavras morfologia fuvest")),
        Link("Ortografia — YouTube", ToYouTubeSearch(h, "ortografia dicas fuvest")),
        Link("Gramática — Morfologia", "https://www.normaculta.com.br/categoria/morfologia/"),
        Link("Tudo Enem — Ortografia", "https://www.tudoenem.com.br/ortografia/")))
  }

  /** Whether one keyword hits the lower-cased title `t`. */
  predicate KeywordHits(h: Host, k: Keyword, t: string): (b: bool)
    ensures k.Pattern? ==> (b <==> h.regexTest(k.source, t))
    ensures k.Literal? && b ==> |h.toLowerCase(k.text)| <= |t|
    ensures k.Literal? && h.toLowerCase(k.text) == [] ==> b
    ensures k.Literal? ==> (b <==> exists i: nat :: OccursAt(t, h.toLowerCase(k.text), i))
  {
    match k
    case Literal(s) => ContainsOccurs(t, h.toLowerCase(s)); Contains(t, h.toLowerCase(s))
    case Pattern(source) => h.regexTest(source, t)
  }

  /** `rule.keywords.some(...)`. */
  predicate RuleHits(h: Host, rule: Rule, t: string): (b: bool)
    ensures b ==> |rule.keywords| >= 1
    ensures forall i | 0 <= i < |rule.keywords| :: KeywordHits(h, rule.keywords[i], t) ==> b
    ensures !b ==> forall i | 0 <= i < |rule.keywords| :: !KeywordHits(h, rule.keywords[i], t)
    ensures b ==> exists i | 0 <= i < |rule.keywords| :: KeywordHits(h, rule.keywords[i], t)
  {
    exists i | 0 <= i < |rule.keywords| :: KeywordHits(h, rule.keywords[i], t)
  }

  /** The index of the first rule that hits `t`, if any. */
  function FirstMatch(h: Host, rules: seq<Rule>, t: string): (r: Option<nat>)
    ensures r.Some? ==> r.value < |rules| && RuleHits(h, rules[r.value], t)
    ensures r.Some? ==> forall j | 0 <= j < r.value :: !RuleHits(h, rules[j], t)
    ensures r.None? ==> forall j | 0 <= j < |rules| :: !RuleHits(h, rules[j], t)
    decreases |rules|
  {
    if rules == [] then None
    else if RuleHits(h, rules[0], t) then Some(0)
    else match FirstMatch(h, rules[1..], t)
      case None => None
      case Some(i) => Some(i + 1)
  }

  /** The two search pages the generic bundle points at, before the encoded title. */
  const KhanSearch: string := "https://pt.khanacademy.org/search?page_search_query="
  const ScholarSearch: string := "https://scholar.google.com/scholar?hl=pt-BR&q="

  /** The generic bundle for a title no rule matches: two YouTube searches for the title with
      exam names and with "exercícios resolvidos", and Khan Academy and Google Scholar
      searches for the title, all built from the title as the caller wrote it. */
  function Fallback(h: Host, title: string): (b: ResourceBundle)
    ensures |b.videos| == 2 && |b.materials| == 2
    ensures b.videos[0].url == ToYouTubeSearch(h, title + " FUVEST ENEM")
    ensures b.videos[1].url == ToYouTubeSearch(h, title + " exercícios resolvidos")
    ensures b.materials[0].url == KhanSearch + h.encodeUriComponent(title)
    ensures b.materials[1].url == ScholarSearch + h.encodeUriComponent(title)
    ensures forall i | 0 <= i < 2 ::
      |SearchPrefix| <= |b.videos[i].url| && b.videos[i].url[..|SearchPrefix|] == SearchPrefix
    ensures forall i | 0 <= i < 2 ::
      var e := h.encodeUriComponent(title);
      |e| <= |b.materials[i].url| && b.materials[i].url[|b.materials[i].url| - |e|..] == e
  {
    var e := h.encodeUriComponent(title);
    var khan := KhanSearch + e;
    var scholar := ScholarSearch + e;
    assert khan[|khan| - |e|..] == e;
    assert scholar[|scholar| - |e|..] == e;
    ResourceBundle(
      [ Link("YouTube — videoaulas sobre o tema", ToYouTubeSearch(h, title + " FUVEST ENEM")),
        Link("YouTube — exercícios resolvidos", ToYouTubeSearch(h, title + " exercícios resolvidos")) ],
      [ Link("Khan Academy — pesquisa", khan),
        Link("Google Acadêmico — materiais", scholar) ])
  }

  /** Two titles get the same generic materials exactly when they percent-encode alike. */
  lemma FallbackMaterialsFollowEncoding(h: Host, a: string, b: string)
    ensures Fallback(h, a).materials == Fallback(h, b).materials
        <==> h.encodeUriComponent(a) == h.encodeUriComponent(b)
  {
    var ea, eb := h.encodeUriComponent(a), h.encodeUriComponent(b);
    if Fallback(h, a).materials == Fallback(h, b).materials {
      var ka, kb := KhanSearch + ea, KhanSearch + eb;
      assert ka == kb;
      assert ka[|KhanSearch|..] == ea && kb[|KhanSearch|..] == eb;
    }
  }

  /** The first rule that hits is the one `FirstMatch` finds. */
  lemma FirstMatchIsLeast(h: Host, rules: seq<Rule>, t: string)
    ensures forall i | 0 <= i < |rules| && RuleHits(h, rules[i], t)
      && (forall j | 0 <= j < i :: !RuleHits(h, rules[j], t)) :: FirstMatch(h, rules, t) == Some(i)
  {
  }

  /** `getResources(title)`: the bundle of the first rule any of whose keywords hits the
      lower-cased title, or the generic bundle when none does. Either way two videos and two
      materials. */
  function GetResources(h: Host, title: string): (b: ResourceBundle)
    ensures |b.videos| == 2 && |b.materials| == 2
    ensures forall i | 0 <= i < 18 ::
      RuleHits(h, Rules(h)[i], h.toLowerCase(title))
      && (forall j | 0 <= j < i :: !RuleHits(h, Rules(h)[j], h.toLowerCase(title)))
      ==> b == Rules(h)[i].resources
    ensures (forall i | 0 <= i < 18 :: !RuleHits(h, Rules(h)[i], h.toLowerCase(title)))
      ==> b == Fallback(h, title)
  {
    var t := h.toLowerCase(title);
    var rules := Rules(h);
    FirstMatchIsLeast(h, rules, t);
    match FirstMatch(h, rules, t)
    case Some(i) => rules[i].resources
    case None => Fallback(h, title)
  }

  /** Priority: a title the quadratic-function keyword hits gets the quadratic bundle, even
      when later rules (such as the one for functions in general) would hit it too. */
  lemma QuadraticsOutrankLaterRules(h: Host, title: string)
    requires h.regexTest("fun(ç|c)ão quadrát", h.toLowerCase(title))
    ensures GetResources(h, title) == RuleQuadratics(h).resources
  {
    var t := h.toLowerCase(title);
    var q := RuleQuadratics(h);
    assert q.keywords[1] == Pattern("fun(ç|c)ão quadrát");
    assert KeywordHits(h, q.keywords[1], t);
    assert RuleHits(h, q, t);
    assert Rules(h)[0] == RuleAt(h, 0) == q;
  }

  /** Rule matching only sees the lower-cased title: two titles that lower-case alike get
      the same canned bundle. Only the generic bundle keeps the title's own case. */
  lemma MatchingIgnoresCase(h: Host, t1: string, t2: string)
    requires h.toLowerCase(t1) == h.toLowerCase(t2)
    requires exists i | 0 <= i < 18 :: RuleHits(h, Rules(h)[i], h.toLowerCase(t1))
    ensures GetResources(h, t1) == GetResources(h, t2)
  {
  }
}

=== FILE: resources_route.dfy ===
/** The resources endpoint (`app/api/resources/route.ts`): the rule-based bundle when there
    is no API key or the generative service's answer does not validate, otherwise the
    service's links with duplicate URLs removed and at most three per list. */
module ResourcesRoute {
  import opened Wrappers
  import opened Json
  import opened JsText
  import opened Sequences
  import opened Platform
  import opened Schema
  import opened YouTube
  import opened Resources

  /** The reply, always with status 200. `Recovered` is the catch branch, whose body also
      carries the exception's message (not modelled). */
  datatype Reply = Served(resources: ResourceBundle) | Recovered(resources: ResourceBundle)

  /** `Body.parse(await req.json())`: the title, when the request body is JSON with a string
      `title` of at least three code units. */
  function ParseTitle(body: Option<Json>): (r: Option<string>)
    ensures r.Some? <==> body.Some? && Get(body.value, "title").Some?
                         && Get(body.value, "title").value.JStr?
                         && JsLength(Get(body.value, "title").value.s) >= 3
    ensures r.Some? ==> Get(body.value, "title") == Some(JStr(r.value)) && JsLength(r.value) >= 3
  {
    match body
    case None => None
    case Some(j) => StringMin(Get(j, "title"), 3)
  }

  /** Only `title` is read: any other key of the body changes nothing. */
  lemma ParseTitleIgnoresUnknownKeys(m: map<string, Json>, k: string, v: Json)
    requires k != "title"
    ensures ParseTitle(Some(JObj(m[k := v]))) == ParseTitle(Some(JObj(m)))
  {
    assert Get(JObj(m[k := v]), "title") == Get(JObj(m), "title");
  }

  // ---------------------------------------------------------------- BundleSchema

  /** What `LinkSchema` demands of a link. */
  predicate ValidLink(h: Host, l: Link) {
    JsLength(l.caption) >= 2 && h.parseUrl(l.url).Some?
  }

  /** What `BundleSchema` demands: both lists non-empty and every link valid. */
  predicate ValidBundle(h: Host, b: ResourceBundle) {
    && |b.videos| >= 1 && |b.materials| >= 1
    && (forall i | 0 <= i < |b.videos| :: ValidLink(h, b.videos[i]))
    && (forall i | 0 <= i < |b.materials| :: ValidLink(h, b.materials[i]))
  }

  /** `LinkSchema.safeParse(v)`; unknown keys are dropped. */
  function ParseLink(h: Host, v: Json): (r: Option<Link>)
    ensures r.Some? ==> ValidLink(h, r.value)
    ensures r.Some? ==> Get(v, "label") == Some(JStr(r.value.caption)) && Get(v, "url") == Some(JStr(r.value.url))
    ensures (&& Get(v, "label").Some? && Get(v, "label").value.JStr?
             && Get(v, "url").Some? && Get(v, "url").value.JStr?
             && ValidLink(h, Link(Get(v, "label").value.s, Get(v, "url").value.s)))
            ==> r.Some?
  {
    var caption := StringMin(Get(v, "label"), 2);
    var url := UrlString(h, Get(v, "url"));
    if caption.Some? && url.Some? then Some(Link(caption.value, url.value)) else None
  }

  /** `z.array(LinkSchema)` on the items of an array: every item must parse. */
  function ParseLinks(h: Host, items: seq<Json>): (r: Option<seq<Link>>)
    ensures r.Some? ==> (|r.value| == |items|
      && forall i | 0 <= i < |items| :: ParseLink(h, items[i]) == Some(r.value[i]))
    ensures r.None? ==> exists i | 0 <= i < |items| :: ParseLink(h, items[i]).None?
    decreases |items|
  {
    if items == [] then Some([])
    else match (ParseLink(h, items[0]), ParseLinks(h, items[1..]))
      case (Some(l), Some(ls)) => Some([l] + ls)
      case (None, _) => None
      case (_, None) => None
  }

  /** `z.array(LinkSchema).min(1)` on an optional property. */
  function ParseLinkList(h: Host, v: Option<Json>): (r: Option<seq<Link>>)
    ensures r.Some? <==> v.Some? && v.value.JArr? && |v.value.items| >= 1
                         && ParseLinks(h, v.value.items).Some?
    ensures r.Some? ==> r == ParseLinks(h, v.value.items)
    ensures r.Some? ==> |r.value| >= 1 && forall i | 0 <= i < |r.value| :: ValidLink(h, r.value[i])
  {
    match v
    case Some(JArr(items)) =>
      (match ParseLinks(h, items)
       case Some(ls) => if |ls| >= 1 then Some(ls) else None
       case None => None)
    case _ => None
  }

  /** `BundleSchema.safeParse(json)`. */
  function ParseBundle(h: Host, v: Json): (r: Option<ResourceBundle>)
    ensures r.Some? ==> ValidBundle(h, r.value)
    ensures r.Some? <==> ParseLinkList(h, Get(v, "videos")).Some? && ParseLinkList(h, Get(v, "materials")).Some?
    ensures r.Some? ==> r.value == ResourceBundle(ParseLinkList(h, Get(v, "videos")).value,
                                                  ParseLinkList(h, Get(v, "materials")).value)
  {
    var videos := ParseLinkList(h, Get(v, "videos"));
    var materials := ParseLinkList(h, Get(v, "materials"));
    if videos.Some? && materials.Some? then Some(ResourceBundle(videos.value, materials.value))
    else None
  }

  /** A bundle as the JSON the generative service is asked to write. */
  function LinkToJson(l: Link): Json {
    JObj(map["label" := JStr(l.caption), "url" := JStr(l.url)])
  }

  function LinksToJson(ls: seq<Link>): (r: seq<Json>)
    ensures |r| == |ls| && forall i | 0 <= i < |ls| :: r[i] == LinkToJson(ls[i])
  {
    seq(|ls|, i requires 0 <= i < |ls| => LinkToJson(ls[i]))
  }

  function BundleToJson(b: ResourceBundle): Json {
    JObj(map["videos" := JArr(LinksToJson(b.videos)), "materials" := JArr(LinksToJson(b.materials))])
  }

  lemma ParseLinkOfJson(h: Host, l: Link)
    requires ValidLink(h, l)
    ensures ParseLink(h, LinkToJson(l)) == Some(l)
  {
    var j := LinkToJson(l);
    assert Get(j, "label") == Some(JStr(l.caption));
    assert Get(j, "url") == Some(JStr(l.url));
  }

  lemma ParseLinksOfJson(h: Host, ls: seq<Link>)
    requires forall i | 0 <= i < |ls| :: ValidLink(h, ls[i])
    ensures ParseLinks(h, LinksToJson(ls)) == Some(ls)
  {
    var items := LinksToJson(ls);
    forall i | 0 <= i < |ls| ensures ParseLink(h, items[i]) == Some(ls[i]) {
      ParseLinkOfJson(h, ls[i]);
    }
    match ParseLinks(h, items)
    case Some(r) => assert r == ls;
    case None =>
  }

  /** The schema accepts every valid bundle written as JSON and gives it back unchanged. */
  lemma ParseBundleRoundTrip(h: Host, b: ResourceBundle)
    requires ValidBundle(h, b)
    ensures ParseBundle(h, BundleToJson(b)) == Some(b)
  {
    var j := BundleToJson(b);
    ParseLinksOfJson(h, b.videos);
    ParseLinksOfJson(h, b.materials);
    assert Get(j, "videos") == Some(JArr(LinksToJson(b.videos)));
    assert Get(j, "materials") == Some(JArr(LinksToJson(b.materials)));
  }

  // ---------------------------------------------------------------- unique

  /** The key `unique` compares: the URL exactly as written. */
  function RawUrl(l: Link): string {
    l.url
  }

  /** `unique(arr)`: the first link for each distinct URL, in input order, cut to three. */
  function Unique(arr: seq<Link>): (r: seq<Link>)
    ensures |r| <= 3
    ensures |arr| >= 1 ==> |r| >= 1
    ensures IsSubseq(r, arr)
    ensures forall i, j | 0 <= i < j < |r| :: r[i].url != r[j].url
    ensures |r| <= |Dedupe(arr, RawUrl)| && r == Dedupe(arr, RawUrl)[..|r|]
    ensures |r| == 3 || r == Dedupe(arr, RawUrl)
  {
    var d := Dedupe(arr, RawUrl);
    assert |arr| >= 1 ==> d != [] by {
      if |arr| >= 1 {
        assert RawUrl(arr[0]) in Keys(arr, RawUrl);
      }
    }
    var n := if |d| < 3 then |d| else 3;
    var r := d[..n];
    SubseqPrefix(d, arr, n);
    assert DistinctKeys(d, RawUrl);
    assert forall i | 0 <= i < n :: r[i] == d[i] && RawUrl(d[i]) == r[i].url;
    assert n == |d| ==> r == d;
    r
  }

  // ---------------------------------------------------------------- POST

  /** The title the catch branch rebuilds the fallback for: it reads the request body again,
      gets `{ title: "" }` when that read fails, and uses `"tópico"` when the value read has no
      string title. */
  function CatchTitle(reread: Option<Json>): (r: string)
    ensures reread.None? ==> r == ""
    ensures reread.Some? && Get(reread.value, "title").Some? && Get(reread.value, "title").value.JStr?
            ==> r == Get(reread.value, "title").value.s
    ensures reread.Some? && !(Get(reread.value, "title").Some? && Get(reread.value, "title").value.JStr?)
            ==> r == "tópico"
  {
    match reread
    case None => ""
    case Some(raw) =>
      match Get(raw, "title")
      case Some(JStr(t)) => t
      case _ => "tópico"
  }

  /** The validated bundle the generative service answered with, if any. */
  function UpstreamBundle(h: Host, upstream: Upstream): Option<ResourceBundle> {
    match upstream
    case Threw => None
    case Answered(content) =>
      match h.parseJson(TrimmedContent(content))
      case None => None
      case Some(json) => ParseBundle(h, json)
  }

  /** `POST /api/resources`. `body` is the request body as parsed JSON (None when it is not
      JSON), `hasKey` whether `OPENAI_API_KEY` is set, `upstream` the completion call's
      outcome and `reread` the second read of the body in the catch branch. Whatever happens
      the reply has one to three videos and one to three materials, and the fallback is
      served exactly when an exception was caught. */
  function Post(h: Host, body: Option<Json>, hasKey: bool, upstream: Upstream, reread: Option<Json>)
    : (r: Reply)
    ensures 1 <= |r.resources.videos| <= 3 && 1 <= |r.resources.materials| <= 3
    ensures r.Recovered? <==> ParseTitle(body).None? || (hasKey && upstream.Threw?)
    ensures r.Recovered? ==> r.resources == GetResources(h, CatchTitle(reread))
    ensures r.Served? ==> r.resources == GetResources(h, ParseTitle(body).value)
                          || UpstreamBundle(h, upstream).Some?
  {
    match ParseTitle(body)
    case None => Recovered(GetResources(h, CatchTitle(reread)))
    case Some(title) =>
      if !hasKey then Served(GetResources(h, title))
      else match upstream
        case Threw => Recovered(GetResources(h, CatchTitle(reread)))
        case Answered(content) =>
          match h.parseJson(TrimmedContent(content))
          case None => Served(GetResources(h, title))
          case Some(json) =>
            match ParseBundle(h, json)
            case None => Served(GetResources(h, title))
            case Some(b) => Served(ResourceBundle(Unique(b.videos), Unique(b.materials)))
  }

  /** A request body can be read only once, and the catch branch is reached only after the
      first read. The second read therefore fails, and the fallback is built for the empty
      title rather than for the title the client sent. */
  lemma SpentBodyFallsBackOnEmptyTitle(h: Host, body: Option<Json>, hasKey: bool, upstream: Upstream)
    requires ParseTitle(body).None? || (hasKey && upstream.Threw?)
    ensures Post(h, body, hasKey, upstream, None) == Recovered(GetResources(h, ""))
  {
  }

  /** Without an API key the reply is the rule-based bundle for the title. */
  lemma NoKeyServesRules(h: Host, body: Option<Json>, upstream: Upstream, reread: Option<Json>)
    requires ParseTitle(body).Some?
    ensures Post(h, body, false, upstream, reread) == Served(GetResources(h, ParseTitle(body).value))
  {
  }

  /** An answer that is not JSON, or JSON that fails `BundleSchema` (a label shorter than two,
      a URL that does not parse, an empty list), gives the rule-based bundle. */
  lemma InvalidAnswerServesRules(h: Host, body: Option<Json>, content: Option<string>, reread: Option<Json>)
    requires ParseTitle(body).Some?
    requires UpstreamBundle(h, Answered(content)).None?
    ensures Post(h, body, true, Answered(content), reread) == Served(GetResources(h, ParseTitle(body).value))
  {
  }

  /** A validated answer is served with each list cut to its first three distinct URLs. */
  lemma ValidAnswerIsDeduplicated(h: Host, body: Option<Json>, content: Option<string>, reread: Option<Json>)
    requires ParseTitle(body).Some?
    requires UpstreamBundle(h, Answered(content)).Some?
    ensures var b := UpstreamBundle(h, Answered(content)).value;
            var r := Post(h, body, true, Answered(content), reread);
            && r == Served(ResourceBundle(Unique(b.videos), Unique(b.materials)))
            && IsSubseq(r.resources.videos, b.videos) && IsSubseq(r.resources.materials, b.materials)
            && (forall i, j | 0 <= i < j < |r.resources.videos| :: r.resources.videos[i].url != r.resources.videos[j].url)
            && (forall i, j | 0 <= i < j < |r.resources.materials| :: r.resources.materials[i].url != r.resources.materials[j].url)
  {
    var b := UpstreamBundle(h, Answered(content)).value;
    assert Post(h, body, true, Answered(content), reread)
        == Served(ResourceBundle(Unique(b.videos), Unique(b.materials)));
  }
}

=== FILE: schema.dfy ===
/** The zod validators the routes use, as predicates and partial parsers over JSON values.
    A zod object schema accepts only objects (not arrays, not null), ignores keys it does not
    name and, for an optional key, accepts its absence but not `null`. */
module Schema {
  import opened Wrappers
  import opened Json
  import opened JsText
  import opened Platform

  /** `z.string().min(n)`; the length is counted in UTF-16 code units. */
  function StringMin(v: Option<Json>, n: nat): (r: Option<string>)
    ensures r.Some? <==> v.Some? && v.value.JStr? && JsLength(v.value.s) >= n
    ensures r.Some? ==> v == Some(JStr(r.value))
  {
    match v
    case Some(JStr(s)) => if JsLength(s) >= n then Some(s) else None
    case _ => None
  }

  /** `z.string().url()`: a string the WHATWG URL parser accepts. */
  function UrlString(h: Host, v: Option<Json>): (r: Option<string>)
    ensures r.Some? <==> v.Some? && v.value.JStr? && h.parseUrl(v.value.s).Some?
    ensures r.Some? ==> v == Some(JStr(r.value))
  {
    match v
    case Some(JStr(s)) => if h.parseUrl(s).Some? then Some(s) else None
    case _ => None
  }

  /** `z.number().optional()` */
  predicate OptionalNumber(v: Option<Json>) {
    v.None? || v.value.JNum?
  }

  /** `z.array(z.enum(["FUVEST", "ENEM"])).optional()` */
  predicate OptionalExamList(v: Option<Json>) {
    match v
    case None => true
    case Some(JArr(xs)) => forall i | 0 <= i < |xs| :: xs[i] == JStr("FUVEST") || xs[i] == JStr("ENEM")
    case _ => false
  }

  /** `z.object({ from: z.number().optional(), to: z.number().optional() }).optional()` */
  predicate OptionalYears(v: Option<Json>) {
    match v
    case None => true
    case Some(JObj(m)) => OptionalNumber(Get(JObj(m), "from")) && OptionalNumber(Get(JObj(m), "to"))
    case _ => false
  }
}

=== FILE: sequences.dfy ===
/** Sequence helpers: subsequences (what is left of a list after dropping some of its
    elements, in order) and the concatenation of the images of a list. */
module Sequences {

  /** `a` can be obtained from `b` by deleting elements. */
  predicate IsSubseq<T(==)>(a: seq<T>, b: seq<T>)
    decreases |b|
  {
    if |a| == 0 then true
    else if |b| == 0 then false
    else (a[|a| - 1] == b[|b| - 1] && IsSubseq(a[..|a| - 1], b[..|b| - 1]))
         || IsSubseq(a, b[..|b| - 1])
  }

  lemma {:induction false} SubseqDropLast<T>(a: seq<T>, b: seq<T>)
    requires |a| > 0 && IsSubseq(a, b)
    ensures IsSubseq(a[..|a| - 1], b)
    decreases |b|
  {
    var a' := a[..|a| - 1];
    var b' := b[..|b| - 1];
    if a[|a| - 1] == b[|b| - 1] && IsSubseq(a', b') {
      assert IsSubseq(a', b);
    } else {
      SubseqDropLast(a, b');
      assert IsSubseq(a', b);
    }
  }

  /** Every prefix of a subsequence is a subsequence. */
  lemma {:induction false} SubseqPrefix<T>(a: seq<T>, b: seq<T>, k: nat)
    requires k <= |a| && IsSubseq(a, b)
    ensures IsSubseq(a[..k], b)
    decreases |a| - k
  {
    if k < |a| {
      SubseqDropLast(a, b);
      assert a[..|a| - 1][..k] == a[..k];
      SubseqPrefix(a[..|a| - 1], b, k);
    } else {
      assert a[..k] == a;
    }
  }

  /** The elements each item maps to, item after item. */
  function ConcatMap<A, B>(f: A -> seq<B>, xs: seq<A>): seq<B>
    decreases |xs|
  {
    if xs == [] then [] else f(xs[0]) + ConcatMap(f, xs[1..])
  }

  /** Mapping a concatenation concatenates the images. */
  lemma {:induction false} ConcatMapAppend<A, B>(f: A -> seq<B>, a: seq<A>, b: seq<A>)
    ensures ConcatMap(f, a + b) == ConcatMap(f, a) + ConcatMap(f, b)
    decreases |a|
  {
    if a == [] {
      assert a + b == b;
    } else {
      assert (a + b)[0] == a[0];
      assert (a + b)[1..] == a[1..] + b;
      ConcatMapAppend(f, a[1..], b);
    }
  }
}

=== FILE: wrappers.dfy ===
/** Optional values: the `undefined`/absent case of the source and the failure of a parse. */
module Wrappers {

  datatype Option<+T> = None | Some(value: T) {

    /** Returns the wrapped value, or `default` when there is none (JavaScript's `??`). */
    function GetOr(default: T): T {
      match this
      case Some(v) => v
      case None => default
    }
  }
}

=== FILE: youtube.dfy ===
/** The link utilities of `lib/youtube.ts`: classifying video URLs, building the search URL
    that stands in for a broken video link, and removing duplicate links. */
module YouTube {
  import opened Wrappers
  import opened JsText
  import opened Sequences
  import opened Platform

  /** A labelled link (`YtVideo`, structurally the same type as `StudyLink`). */
  datatype Link = Link(caption: string, url: string)  // `label` is a Dafny keyword

  const SearchPrefix: string := "https://www.youtube.com/results?search_query="

  /** The search-results page for a free-text query. */
  function ToYouTubeSearch(h: Host, q: string): (r: string)
    ensures |r| == |SearchPrefix| + |h.encodeUriComponent(q)|
    ensures r[..|SearchPrefix|] == SearchPrefix
    ensures r[|SearchPrefix|..] == h.encodeUriComponent(q)
  {
    SearchPrefix + h.encodeUriComponent(q)
  }

  /** Two queries give the same search URL exactly when they encode alike. */
  lemma SearchUrlsEqual(h: Host, a: string, b: string)
    ensures ToYouTubeSearch(h, a) == ToYouTubeSearch(h, b)
        <==> h.encodeUriComponent(a) == h.encodeUriComponent(b)
  {
    if ToYouTubeSearch(h, a) == ToYouTubeSearch(h, b) {
      assert ToYouTubeSearch(h, a)[|SearchPrefix|..] == ToYouTubeSearch(h, b)[|SearchPrefix|..];
    }
  }

  /** The three youtube.com hosts all contain `youtube.com`, so the watch-page test of
      `IsWatchUrl` applies to each of them. */
  lemma YouTubeHostsContainDomain()
    ensures Contains("www.youtube.com", "youtube.com")
    ensures Contains("youtube.com", "youtube.com")
    ensures Contains("m.youtube.com", "youtube.com")
  {
    assert "www.youtube.com"[4..][..11] == "youtube.com";
    assert "youtube.com"[..11] == "youtube.com";
    assert "m.youtube.com"[2..][..11] == "youtube.com";
  }

  /** Whether the URL parses and names one of the four YouTube hosts. A URL that does not
      parse is never one; every host it accepts other than `youtu.be` contains
      `youtube.com`. */
  predicate IsLikelyYouTubeUrl(h: Host, url: string): (b: bool)
    ensures h.parseUrl(url).None? ==> !b
    ensures b && h.parseUrl(url).value.hostname != "youtu.be" ==>
      Contains(h.parseUrl(url).value.hostname, "youtube.com")
    ensures h.parseUrl(url).Some? ==>
      (b <==> h.parseUrl(url).value.hostname in {"youtube.com", "www.youtube.com", "m.youtube.com", "youtu.be"})
  {
    YouTubeHostsContainDomain();
    match h.parseUrl(url)
    case None => false
    case Some(u) => u.hostname in ["www.youtube.com", "youtube.com", "youtu.be", "m.youtube.com"]
  }

  /** Whether the URL points at one video rather than at a listing or search page: a
      `youtu.be` link with a path beyond `/`, or a `/watch` page with a non-empty `v`. */
  predicate IsWatchUrl(h: Host, url: string): (b: bool)
    ensures h.parseUrl(url).None? ==> !b
    ensures h.parseUrl(url).Some? && h.parseUrl(url).value.hostname == "youtu.be" ==>
      (b <==> JsLength(h.parseUrl(url).value.pathname) > 1)
    ensures b && h.parseUrl(url).value.hostname != "youtu.be" ==>
      var u := h.parseUrl(url).value;
      u.pathname == "/watch" && u.v.Some? && u.v.value != []
    ensures h.parseUrl(url).Some? && h.parseUrl(url).value.hostname != "youtu.be" ==>
      var u := h.parseUrl(url).value;
      (b <==> Contains(u.hostname, "youtube.com") && u.pathname == "/watch" && u.v.Some? && |u.v.value| > 0)
  {
    match h.parseUrl(url)
    case None => false
    case Some(u) =>
      if u.hostname == "youtu.be" then JsLength(u.pathname) > 1   // !!pathname.slice(1)
      else if Contains(u.hostname, "youtube.com") then
        u.pathname == "/watch" && u.v.Some? && u.v.value != []
      else false
  }

  /** The links a video list may keep, stated host by host: a `youtu.be` short link with a
      video id, or a `/watch` page with a non-empty `v` on one of the three youtube.com hosts. */
  predicate DirectVideoLink(h: Host, url: string) {
    match h.parseUrl(url)
    case None => false
    case Some(u) =>
      || (u.hostname == "youtu.be" && JsLength(u.pathname) > 1)
      || (u.hostname in ["www.youtube.com", "youtube.com", "m.youtube.com"]
          && u.pathname == "/watch" && u.v.Some? && u.v.value != [])
  }

  /** The two checks of the video repair together accept exactly the direct video links. */
  lemma KeptLinksAreDirect(h: Host, url: string)
    ensures IsLikelyYouTubeUrl(h, url) && IsWatchUrl(h, url) <==> DirectVideoLink(h, url)
  {
    YouTubeHostsContainDomain();
  }

  /** A search URL that parses to a `/results` page is never taken for a video link. */
  lemma SearchUrlIsNotWatch(h: Host, q: string)
    requires h.parseUrl(ToYouTubeSearch(h, q)).Some? ==>
      h.parseUrl(ToYouTubeSearch(h, q)).value.hostname == "www.youtube.com"
      && h.parseUrl(ToYouTubeSearch(h, q)).value.pathname == "/results"
    ensures !IsWatchUrl(h, ToYouTubeSearch(h, q))
  {
  }

  /** One link of the repair: kept when it is a direct video link, pointed at the search page
      otherwise. */
  function Repair(h: Host, v: Link, query: string): (r: Link)
    ensures r.caption == v.caption
    ensures r.url == if DirectVideoLink(h, v.url) then v.url else ToYouTubeSearch(h, query)
  {
    KeptLinksAreDirect(h, v.url);
    if !IsLikelyYouTubeUrl(h, v.url) || !IsWatchUrl(h, v.url) then
      Link(v.caption, ToYouTubeSearch(h, query))
    else v
  }

  /** Replaces every link that is not a direct video link by the search page for `query`,
      keeping the labels and the order. */
  function NormalizeVideosToSearchIfBroken(h: Host, videos: seq<Link>, query: string): (r: seq<Link>)
    ensures |r| == |videos|
    ensures forall i | 0 <= i < |r| :: r[i].caption == videos[i].caption
    ensures forall i | 0 <= i < |r| ::
      r[i].url == if DirectVideoLink(h, videos[i].url) then videos[i].url else ToYouTubeSearch(h, query)
    ensures forall i | 0 <= i < |r| ::
      DirectVideoLink(h, r[i].url) || r[i].url == ToYouTubeSearch(h, query)
  {
    seq(|videos|, i requires 0 <= i < |videos| => Repair(h, videos[i], query))
  }

  /** Repairing a repaired list changes nothing. */
  lemma NormalizeIdempotent(h: Host, videos: seq<Link>, query: string)
    ensures NormalizeVideosToSearchIfBroken(h, NormalizeVideosToSearchIfBroken(h, videos, query), query)
         == NormalizeVideosToSearchIfBroken(h, videos, query)
  {
  }

  // ---------------------------------------------------------------- duplicate removal

  /** The key `dedupeLinks` compares: the URL without surrounding whitespace. */
  function TrimmedUrl(l: Link): string {
    Trim(l.url)
  }

  function Keys(list: seq<Link>, key: Link -> string): set<string> {
    set i | 0 <= i < |list| :: key(list[i])
  }

  predicate DistinctKeys(list: seq<Link>, key: Link -> string) {
    forall i, j | 0 <= i < j < |list| :: key(list[i]) != key(list[j])
  }

  /** The first link of the list whose key is `k`. */
  function FirstWithKey(list: seq<Link>, key: Link -> string, k: string): Option<Link>
    decreases |list|
  {
    if list == [] then None
    else if key(list[0]) == k then Some(list[0])
    else FirstWithKey(list[1..], key, k)
  }

  /** The index of the first link of the list whose key is `k`, or `|list|` when there is
      none. */
  function FirstIndex(list: seq<Link>, key: Link -> string, k: string): (r: nat)
    ensures r <= |list|
    ensures r < |list| ==> key(list[r]) == k
    ensures forall j | 0 <= j < r :: key(list[j]) != k
    decreases |list|
  {
    if list == [] || key(list[0]) == k then 0
    else
      var r := FirstIndex(list[1..], key, k);
      assert forall j | 0 < j < 1 + r :: list[j] == list[1..][j - 1];
      1 + r
  }

  /** Appending a link does not move the first index of a key already present. */
  lemma FirstIndexAppendOld(init: seq<Link>, x: Link, key: Link -> string, k: string)
    requires k in Keys(init, key)
    ensures FirstIndex(init + [x], key, k) == FirstIndex(init, key, k) < |init|
  {
    var i :| 0 <= i < |init| && key(init[i]) == k;
    var p := FirstIndex(init, key, k);
    var l := init + [x];
    assert p < |init| && l[p] == init[p];
    assert forall j | 0 <= j < p :: l[j] == init[j];
    var q := FirstIndex(l, key, k);
    assert !(q < p) && !(p < q);
  }

  /** An appended link with a new key is the first with that key. */
  lemma FirstIndexAppendNew(init: seq<Link>, x: Link, key: Link -> string)
    requires key(x) !in Keys(init, key)
    ensures FirstIndex(init + [x], key, key(x)) == |init|
  {
    var l := init + [x];
    forall j | 0 <= j < |init| ensures key(l[j]) != key(x) {
      assert l[j] == init[j] && key(init[j]) in Keys(init, key);
    }
    assert l[|init|] == x;
  }

  lemma KeysAppend(list: seq<Link>, x: Link, key: Link -> string)
    ensures Keys(list + [x], key) == Keys(list, key) + {key(x)}
  {
    var l := list + [x];
    assert forall i | 0 <= i < |list| :: l[i] == list[i];
    assert l[|list|] == x;
  }

  lemma {:induction false} FirstWithKeyAppend(list: seq<Link>, x: Link, key: Link -> string)
    ensures forall k :: (FirstWithKey(list + [x], key, k) ==
                         if FirstWithKey(list, key, k).Some? then FirstWithKey(list, key, k)
                         else if key(x) == k then Some(x) else None)
    decreases |list|
  {
    if list != [] {
      assert (list + [x])[1..] == list[1..] + [x];
      FirstWithKeyAppend(list[1..], x, key);
    }
  }

  lemma {:induction false} FirstWithKeyMissing(list: seq<Link>, key: Link -> string, k: string)
    requires k !in Keys(list, key)
    ensures FirstWithKey(list, key, k) == None
    decreases |list|
  {
    if list != [] {
      assert key(list[0]) in Keys(list, key);
      assert Keys(list[1..], key) <= Keys(list, key) by {
        forall i | 0 <= i < |list[1..]| ensures key(list[1..][i]) in Keys(list, key) {
          assert list[1..][i] == list[i + 1];
        }
      }
      FirstWithKeyMissing(list[1..], key, k);
    }
  }

  /** The first link for each key, in input order: the specification of both duplicate
      filters (`dedupeLinks` on the trimmed URL, the resources route's `unique` on the raw
      URL). The result is a subsequence of the input, no two results share a key, every
      key of the input survives, and each survivor is the first input link with its key. */
  function Dedupe(list: seq<Link>, key: Link -> string): (r: seq<Link>)
    ensures IsSubseq(r, list)
    ensures DistinctKeys(r, key)
    ensures Keys(r, key) == Keys(list, key)
    ensures forall i | 0 <= i < |r| :: FirstWithKey(list, key, key(r[i])) == Some(r[i])
    decreases |list|
  {
    if list == [] then []
    else
      var init := list[..|list| - 1];
      var last := list[|list| - 1];
      var kept := Dedupe(init, key);
      assert list == init + [last];
      KeysAppend(init, last, key);
      FirstWithKeyAppend(init, last, key);
      if key(last) in Keys(kept, key) then kept
      else
        FirstWithKeyMissing(init, key, key(last));
        KeysAppend(kept, last, key);
        kept + [last]
  }

  /** The survivors keep the order in which their keys first appear in the input. */
  lemma {:induction false} DedupeKeepsFirstOrder(list: seq<Link>, key: Link -> string)
    ensures forall i, j | 0 <= i < j < |Dedupe(list, key)| ::
      FirstIndex(list, key, key(Dedupe(list, key)[i])) < FirstIndex(list, key, key(Dedupe(list, key)[j]))
    decreases |list|
  {
    if list != [] {
      var init := list[..|list| - 1];
      var last := list[|list| - 1];
      var kept := Dedupe(init, key);
      assert list == init + [last];
      DedupeKeepsFirstOrder(init, key);
      forall i | 0 <= i < |kept|
        ensures FirstIndex(list, key, key(kept[i])) == FirstIndex(init, key, key(kept[i])) < |init|
      {
        assert key(kept[i]) in Keys(kept, key);
        FirstIndexAppendOld(init, last, key, key(kept[i]));
      }
      if key(last) !in Keys(kept, key) {
        assert key(last) !in Keys(init, key);
        FirstIndexAppendNew(init, last, key);
        var r := kept + [last];
        assert Dedupe(list, key) == r;
        forall i, j | 0 <= i < j < |r|
          ensures FirstIndex(list, key, key(r[i])) < FirstIndex(list, key, key(r[j]))
        {
          assert r[i] == kept[i];
          if j < |kept| {
            assert r[j] == kept[j];
            assert FirstIndex(init, key, key(kept[i])) < FirstIndex(init, key, key(kept[j]));
          } else {
            assert r[j] == last;
            assert FirstIndex(list, key, key(last)) == |init|;
          }
        }
      } else {
        assert Dedupe(list, key) == kept;
      }
    }
  }

  /** A list whose keys are already distinct is left as it is. */
  lemma {:induction false} DedupeOfDistinct(list: seq<Link>, key: Link -> string)
    requires DistinctKeys(list, key)
    ensures Dedupe(list, key) == list
    decreases |list|
  {
    if list != [] {
      var init := list[..|list| - 1];
      var last := list[|list| - 1];
      DedupeOfDistinct(init, key);
      assert key(last) !in Keys(init, key);
    }
  }

  /** Removing duplicates twice is removing them once. */
  lemma DedupeIdempotent(list: seq<Link>, key: Link -> string)
    ensures Dedupe(Dedupe(list, key), key) == Dedupe(list, key)
  {
    DedupeOfDistinct(Dedupe(list, key), key);
  }

  /** `dedupeLinks`: one pass with a set of the trimmed URLs seen so far. */
  method DedupeLinks(list: seq<Link>) returns (out: seq<Link>)
    ensures out == Dedupe(list, TrimmedUrl)
    ensures IsSubseq(out, list)
    ensures DistinctKeys(out, TrimmedUrl)
    ensures Keys(out, TrimmedUrl) == Keys(list, TrimmedUrl)
  {
    var seen: set<string> := {};
    out := [];
    var i := 0;
    while i < |list|
      invariant 0 <= i <= |list|
      invariant out == Dedupe(list[..i], TrimmedUrl)
      invariant seen == Keys(out, TrimmedUrl)
    {
      var item := list[i];
      var key := Trim(item.url);
      assert list[..i + 1][..i] == list[..i];
      if key !in seen {
        KeysAppend(out, item, TrimmedUrl);
        out := out + [item];
        seen := seen + {key};
      }
      i := i + 1;
    }
    assert list[..|list|] == list;
  }
}
